=== FILE: README.md ===
# EEP Topic Upload Tool: upload records, archive names, history and the Teton export

This project models the bookkeeping core of the EEP Topic Upload Tool, a desktop
tool that pushes a monthly topic release to the content servers.

* **Archive names.** A release arrives as two archives, `database-D-Month-Y.zip` and
  `D-Month-Y-images.zip`. `find_zip_files` picks them out of a folder listing.
  `log_upload_to_db` reads the topic month back out of their names and checks
  that the two month words agree.
* **The `uploads` table.** It holds one row per upload. The row is inserted as
  *pending* with no timestamp once the archives reach the server. When the
  filter job ends, the row becomes *completed* (and is stamped), *interrupted*
  or *failed*. `init_upload_db` creates the table and migrates a legacy table
  that carried a `filter_completed` flag instead of a status.
* **The history dialog.** It lists the rows newest first, shows stored
  timestamps on a 12-hour clock, and exports the rows to CSV. The export turns
  the shown timestamps back into the stored form.
* **The Teton content export.** A batch job must exit with 0 and leave seven
  known files. They are copied into a folder named after the day, and the export
  is logged in its own `exports` table. The dated folder can later be deleted.

The SQLite files are values: missing, present without the table, or holding
it. The file system, the batch and filter processes, the clock and the
operator's answers are parameters. Modules:

| module | file | models |
|---|---|---|
| `Optional` | optional.dfy | `Option` and `Result` |
| `Text` | text.dfy | character classes, ASCII lowering, zero padding, numerals |
| `RowIds` | row_ids.dfy | the id SQLite's AUTOINCREMENT hands out |
| `Timestamps` | timestamps.dfy | `strptime` for `%Y-%m-%d %H:%M:%S` and `%Y-%m-%d %I:%M %p`; `strftime` for those two and `%Y-%m-%d` |
| `HistoryOrder` | history_order.dfy | SQLite's BINARY text order and `ORDER BY ... IS NULL, ts DESC` as a sort |
| `WinPath` | win_path.dfy | `ntpath.join` and `ntpath.basename` for the paths the tool builds |
| `ArchiveNames` | archive_names.dfy | the two archive-name patterns, `find_zip_files`, entry counting |
| `UploadStore` | upload_store.dfy | `init_upload_db`, `log_upload_to_db`, `update_upload_status`, `mark_filter_complete`, `get_upload_history` |
| `FilterMonitor` | filter_monitor.dfy | `monitor_filter_process` |
| `HistoryDialog` | history_dialog.dfy | the history rows and `export_to_csv` |
| `TetonExport` | teton_export.dfy | `init_export_db`, `log_export_to_db`, `run_teton_export`, `get_export_history`, `clear_exported_folder` |

Three behaviours of the code that the model keeps as they are:

* Rows without a timestamp (pending uploads) are listed **last**, not first
  (`CASE WHEN upload_timestamp IS NULL THEN 1 ELSE 0 END`).
* A table that has neither a status column nor `filter_completed` gets the
  column default, **pending**, for every row.
* There is no forward-only guard on the status. `mark_filter_complete(id, False)`
  puts a completed upload back to pending and keeps its timestamp
  (`UploadStore.CompletedCanReturnToPending`).

## Model

| member | source | states |
|---|---|---|
| Timestamps.ParseStored | ui/dialogs.py:350 | Reading `%Y-%m-%d %H:%M:%S` accepts only valid calendar dates and times, so every result is a valid moment. |
| Timestamps.ParseDisplay | ui/dialogs.py:470 | Reading `%Y-%m-%d %I:%M %p` gives a valid moment with zero seconds. The text ends in `AM` or `PM` in any case, and the hour read is 12 or later iff it ends in `PM`. |
| Timestamps.ClockPart | ui/dialogs.py:470 | The `%I:%M %p` part yields an hour from 0 to 23, and the hour is 12 or later iff the text ends in `PM`. |
| Timestamps.To24 | ui/dialogs.py:470 | A 12-hour reading from 1 to 12 becomes hour `h % 12`, plus 12 in the afternoon. So 12 AM is hour 0, 12 PM is hour 12, and the result is 12 or later iff it is PM. |
| Timestamps.ParseStoredOfFormat | tasks/topic_upload.py:322 | A timestamp the tool writes reads back as exactly the moment it was written from. |
| Timestamps.ParseDisplayOfFormat | ui/dialogs.py:351 | The 12-hour form of a moment reads back as the same moment with its seconds dropped. |
| Timestamps.FormatDate | tasks/teton_content_export.py:165 | The folder name is ten characters: four digits that read as the year, two as the month and two as the day, separated by dashes. |
| Timestamps.FormatStored | tasks/topic_upload.py:322 | A stored timestamp is 19 characters: the date, a blank, then two digits each for hour, minute and second, which read back as those values. |
| Timestamps.FormatDisplay | ui/dialogs.py:351 | A shown timestamp is the date, the hour on a 12-hour clock and the minute as two digits each, and `AM` before noon or `PM` from noon on. |
| Timestamps.ZeroSecondsText | ui/dialogs.py:471 | A stored timestamp has 19 characters, and zeroing the seconds replaces only its last two digits by `00`. |
| HistoryOrder.TextLeqTotal | tasks/topic_upload.py:463-465 | Any two timestamps are comparable in SQLite's text order. |
| HistoryOrder.TextLeqTransitive | tasks/topic_upload.py:463-465 | The text order is transitive. |
| HistoryOrder.TextLeqAntisymmetric | tasks/topic_upload.py:463-465 | Two texts ordered both ways are equal. |
| HistoryOrder.ListedBeforeTotal | tasks/topic_upload.py:463-465 | The listing order relates any two rows: stamped rows come before unstamped ones, and stamped rows come in descending text order. |
| HistoryOrder.ListedBeforeTransitive | tasks/topic_upload.py:463-465 | The listing order is transitive. |
| HistoryOrder.SortBy | tasks/topic_upload.py:459-466 | The result is a permutation of the rows in which every earlier row is listed before every later one. |
| WinPath.Join | tasks/teton_content_export.py:166 | The joined path is the folder followed by the name. A backslash is inserted between them exactly when the folder is not empty, not a bare drive and does not already end in a separator. |
| WinPath.Basename | tasks/topic_upload.py:216-217 | The base name is a tail of the path and holds no separator. |
| WinPath.BasenameOfJoin | tasks/teton_content_export.py:80 | The base name of a folder joined with a plain name is that name. |
| ArchiveNames.MatchDatabase | tasks/topic_upload.py:166 | A match at the start means the text begins with `database-` in any case, followed by a digit run, `-`, a word run, `-`, a digit run and `.zip` in any case. The three groups are those runs, each as long as it can be. |
| ArchiveNames.MatchImages | tasks/topic_upload.py:167 | A match at the start means a digit run, `-`, a word run, `-`, a digit run and `-images.zip` in any case. The three groups are those runs, each as long as it can be. |
| ArchiveNames.MatchGroupsOfShape | tasks/topic_upload.py:166-167 | Conversely, text of that shape with maximal runs is matched, and the groups read back are exactly those runs. |
| ArchiveNames.DatabaseNameMatches | tasks/topic_upload.py:166 | A name spelled `database-<digits>-<word>-<digits>.zip` in any case, followed by anything, matches with exactly those three groups. |
| ArchiveNames.ImagesNameMatches | tasks/topic_upload.py:167 | A name spelled `<digits>-<word>-<digits>-images.zip` in any case, followed by anything, matches with exactly those three groups. |
| ArchiveNames.Search | tasks/topic_upload.py:166-167 | A search over the whole text finds nothing iff no position matches. Otherwise it returns the match at the leftmost position that matches. |
| ArchiveNames.SearchFrom | tasks/topic_upload.py:166-167 | `re.search` finds the match with the leftmost start, and no earlier position matches. |
| ArchiveNames.SearchFindsMatchAtStart | tasks/topic_upload.py:166-167 | A name that matches at its start is read from its start. |
| ArchiveNames.SearchSkipsPrefix | tasks/topic_upload.py:166-167 | A path whose name matches, behind a folder part in which no position matches, is read from the start of the name. |
| ArchiveNames.Classify | tasks/topic_upload.py:492-496 | An entry is the database archive iff it ends in `.zip` and matches the database pattern at its start. It is the images archive iff it ends in `.zip`, fails the database pattern and matches the images pattern. |
| ArchiveNames.FindZipFiles | tasks/topic_upload.py:486-498 | Each chosen path is the folder joined with the last listed entry of its kind, or None when no entry is of that kind. |
| ArchiveNames.CountWhere | tasks/topic_upload.py:192-198 | The count is at most the number of entries. It is 0 iff no entry is accepted, and it is the number of entries iff every entry is accepted. |
| ArchiveNames.CountWhereIsMatchingIndices | tasks/topic_upload.py:192-198 | The entry count equals the number of positions whose entry the extension test accepts. |
| UploadStore.Migrate | tasks/topic_upload.py:119-150 | A table without a status column gets one. Rows with `filter_completed = 1` become completed and all others pending. Nothing but the status changes, and a table that has the column is untouched. |
| UploadStore.Init | tasks/topic_upload.py:80-159 | Without the history folder nothing changes. Otherwise a missing table is created empty with a status column, and an existing one is migrated and nothing else: its AUTOINCREMENT counter and its legacy column are kept. |
| UploadStore.InitIdempotent | tasks/topic_upload.py:101-150 | Initialising twice is the same as initialising once. |
| UploadStore.InitKeepsRows | tasks/topic_upload.py:119-150 | After initialisation every row has a status, and every other field is as it was. |
| RowIds.NextRowId | tasks/teton_content_export.py:54 | A new id is above the AUTOINCREMENT counter and above every id in the table. |
| UploadStore.NextId | tasks/topic_upload.py:103 | An AUTOINCREMENT id is above every id ever handed out and is not in the table. |
| UploadStore.TopicMonthReadsBack | tasks/topic_upload.py:188 | The topic month `day-month-year` splits back into the same day, month and year by the archive patterns' group rules. |
| UploadStore.CheckNames | tasks/topic_upload.py:166-188 | The names pass iff both patterns are found and the month words agree ignoring case. The topic month comes from the database archive, and a missing pattern is reported before a month mismatch. |
| UploadStore.TopicMonthOfArchiveNames | tasks/topic_upload.py:166-188 | Two archives given by bare names with the same month word, ignoring case, pass the name check, and the topic month is the database archive's `day-month-year`. |
| UploadStore.TopicMonthOfArchivePaths | tasks/topic_upload.py:166-188 | The same holds for full paths, when the pattern is found nowhere in either folder part. |
| UploadStore.PendingUpload | tasks/topic_upload.py:188-218 | The inserted row has no timestamp and is pending. It holds `day-month-year`, the number of `.xml` entries and of image entries, and the two base names. |
| UploadStore.LogUpload | tasks/topic_upload.py:161-231 | Success iff the names pass, both archives are readable and the table has a status column. Success appends exactly one pending row under a fresh id. Any failure leaves the store as it was, except that a missing file is created empty. |
| UploadStore.UpdateStatus | tasks/topic_upload.py:294-356 | Succeeds iff there is an id and a row with it in a table with a status column. Only that row changes: its status is replaced, and its timestamp becomes the current time exactly when stamping is asked for. |
| UploadStore.MarkFilterComplete | tasks/topic_upload.py:358-361 | Completing stamps the row. Un-completing sets it to pending without a stamp. |
| UploadStore.CompletedCanReturnToPending | tasks/topic_upload.py:358-361 | A completed upload can be set back to pending, and its timestamp stays. |
| UploadStore.InitKeepsWellFormed | tasks/topic_upload.py:80-159 | Initialisation keeps ids distinct and within the counter, and keeps status presence in step with the column. |
| UploadStore.LogUploadKeepsWellFormed | tasks/topic_upload.py:203-221 | Logging an upload keeps the same invariant. |
| UploadStore.UpdateStatusKeepsWellFormed | tasks/topic_upload.py:326-338 | Updating a status keeps the same invariant. |
| UploadStore.History | tasks/topic_upload.py:430-484 | The history is empty when the file, the table or both status columns are missing. Otherwise it is a permutation of the rows with stamped rows first, newest first, and unstamped rows last. |
| FilterMonitor.StatusAfter | tasks/topic_upload.py:366-413 | The recorded status is completed iff the job exited with 0, interrupted iff it exited with any other code, and failed iff waiting on it raised. |
| FilterMonitor.MonitorFilterJob | tasks/topic_upload.py:363-428 | A non-zero exit marks the upload interrupted and a zero exit completes and stamps it. A failed wait marks it failed. The notice shown matches the outcome, and the held id is cleared every time. |
| FilterMonitor.MonitorRecordsOutcome | tasks/topic_upload.py:366-413 | Only the held upload's row changes. It takes the status its ending calls for, and it is stamped exactly on a zero exit. |
| FilterMonitor.CompletedUploadIsStamped | tasks/topic_upload.py:383-397 | A completed upload's timestamp reads back as the moment of completion. |
| HistoryDialog.DisplayTimestamp | ui/dialogs.py:344-353 | No value, `None` or empty is shown as Pending. A readable stored timestamp is shown on the 12-hour clock, and anything else is shown as is. |
| HistoryDialog.DisplayRows | ui/dialogs.py:342-363 | One row per record, in history order, carrying that record's six shown values. |
| HistoryDialog.ExportTimestamp | ui/dialogs.py:467-473 | The Pending label and text that does not read as a shown timestamp are written as they are. A readable shown timestamp is written in stored form, which reads back as the same moment. |
| HistoryDialog.CsvRow | ui/dialogs.py:467-474 | A line has one cell per header column: the converted timestamp, the topic month, the two counts in decimal digits that read back as the counts, and the two archive names. |
| HistoryDialog.ExportToCsv | ui/dialogs.py:449-478 | No rows means a warning and no file. Otherwise the file is the header followed by one line per shown row, in order. |
| HistoryDialog.DisplayIsNotPending | ui/dialogs.py:467 | A shown timestamp is never mistaken for the Pending label. |
| HistoryDialog.ExportOfDisplay | ui/dialogs.py:467-473 | A timestamp the dialog can read is exported as the same minute in stored form. |
| HistoryDialog.ExportOfStoredTimestamp | ui/dialogs.py:467-473 | A timestamp the tool wrote is exported unchanged except for its seconds, which become `00`. |
| TetonExport.InitExportDb | tasks/teton_content_export.py:33-72 | Without the history folder nothing changes. Otherwise the `exports` table exists afterwards. A table created here is empty with its counter at 0, and an existing one is untouched. |
| TetonExport.InitExportDbIdempotent | tasks/teton_content_export.py:33-72 | Initialising twice is the same as initialising once. |
| TetonExport.LogAfterInitExportDb | tasks/teton_content_export.py:52-58 | After initialisation with the history folder in place, logging succeeds, and into a newly created table the record gets id 1. |
| TetonExport.NextExportId | tasks/teton_content_export.py:54 | A new export id is above the counter and is not yet in the table. |
| TetonExport.LogExport | tasks/teton_content_export.py:74-106 | Logging succeeds iff the table exists, and then appends one record under a fresh id. The record holds the current time in stored form and the folder's base name. A failed log leaves the store as it was, except that a missing file is created empty when the history folder exists. |
| TetonExport.ExportHistory | tasks/teton_content_export.py:200-227 | The history is empty without the file or the table. Otherwise it is a permutation of the records, newest timestamp first. |
| TetonExport.MissingFiles | tasks/teton_content_export.py:155-158 | The missing files are exactly the expected files absent from the export directory, kept in the order of the expected list. The list is empty iff every file is present. |
| TetonExport.RunExport | tasks/teton_content_export.py:122-198 | The steps run in order: batch file, exit code, file check, folder, copy, log. Each failure skips every later step and changes no store. The dated folder is remembered from the moment it is named. Success holds iff the batch file ran, exited with 0, left no file missing, the folder was created and no copy failed. A missing folder or a failed copy is reported as such, naming the file that failed. Success means all seven files were copied, and the log result is that of `LogExport` on the store. So a successful run logs at most one record, and exactly one when the table exists (`SuccessfulExportLogsOneRecord`). |
| TetonExport.SuccessfulExportLogsOneRecord | tasks/teton_content_export.py:163-178 | After a successful export the table holds one record more. That record names the dated folder and carries the logging time. |
| TetonExport.ClearExportedFolder | tasks/teton_content_export.py:242-276 | With no folder, an empty path or a vanished folder there is only a warning. The folder is forgotten iff the operator confirms and the removal succeeds. |
| TetonExport.ClearTwiceOnlyWarns | tasks/teton_content_export.py:242-276 | After a clear that deleted the folder, a second clear only warns and remembers no folder. |
| TetonExport.ClearAfterExport | tasks/teton_content_export.py:242-276 | After a successful export whose dated folder still exists, a confirmed and successful clear forgets exactly that folder. Otherwise the folder stays remembered. |

## Left out

- Character classes: `\d` and `\w` are ASCII only here. Python's `str` patterns also accept other Unicode digits and letters, and the archive names the tool meets are ASCII.
- `.lower()`: only ASCII letters are lowered. Python's Unicode case mapping is not modelled, apart from the `re.IGNORECASE` extras for `i` and `s`.
- The timestamp is read with `%p` matching `AM`/`PM` in any case. That assumes an English locale.
- Years below 1000 are written with four digits. `strftime("%Y")` pads them on Windows but not on every platform.
- Paths: only `ntpath.join` and `ntpath.basename` for drive-letter and plain paths. UNC prefixes are not modelled.
- Tk keeps the shown row values as text and turns them back (`_convert_stringval`). The model keeps the integers as integers, and the CSV writer's quoting and BOM are not modelled.
- Threads, `parent.after`, `time.sleep`, message boxes, progress dialogs and the loader are left out. Their effects appear only as the notice a step ends with. `parent.after` is taken to exist.
- FilterMonitor.MonitorFilterJob: any exception in the monitor is modelled as the wait raising. An exception raised later, by a status update or a notice, is not modelled separately.
- `start_topic_upload`, `process_zip_files`, `extract_zip`, `process_database_files`, `process_image_files`, `copy_files_to_server`, `run_filter_job`, `run_elastic_index_job`, `monitor_elastic_process` and `clear_working_folder` are left out. They orchestrate archives, network shares and processes; the model takes their results as inputs.
- `open_exported_folder` is left out: it only asks the shell to open a folder.
- `start_teton_export` and the confirmation in `clear_exported_folder` construct `ConfirmationDialog` with `show_icon`, a keyword its constructor in ui/dialogs.py:176 does not declare. The model takes the operator's answer as the boolean `confirmed` and does not model that call raising.
- `ui/gradient_window.py` (the main window) and `utils/file_utils.py` are not part of this model.
- SQLite internals are not modelled: locking, timeouts, partial commits, rollback after a failed update, and the order among rows with equal timestamps, which SQLite leaves unspecified. `History` and `ExportHistory` therefore promise a sorted permutation rather than one order.
- The batch job's output streams and the paths `/opt/software/...` are not modelled. The job is its exit code, and the export directory is the set of names it holds.
- UploadStore.LogUpload: the model gives the entry names of each archive, or None when it cannot be opened, as inputs. Zip reading is not modelled.

=== FILE: archive_names.dfy ===
/** Recognising and reading the two archive names of a topic upload,
    `database-D-Month-Y.zip` and `D-Month-Y-images.zip`, as the tool's
    regular expressions do with `re.IGNORECASE`, and counting the entries
    of an archive by extension. */
module ArchiveNames {
  import opened Optional
  import opened Text
  import opened WinPath

  /** The three captured groups of either pattern, verbatim. */
  datatype NameParts = NameParts(day: string, month: string, year: string)

  /** Whether `c` matches a lower-case pattern character under `re.IGNORECASE`.
      Besides the ASCII capital, Python also pairs `i` with U+0130 and U+0131
      and `s` with U+017F. */
  predicate CharMatches(c: char, lit: char)
  {
    || LowerChar(c) == lit
    || (lit == 'i' && (c == '\U{130}' || c == '\U{131}'))
    || (lit == 's' && c == '\U{17F}')
  }

  /** `s` starts with the lower-case pattern text `lit` under `re.IGNORECASE`. */
  predicate StartsWithIgnoreCase(s: string, lit: string)
  {
    |lit| <= |s| && forall k :: 0 <= k < |lit| ==> CharMatches(s[k], lit[k])
  }

  /** `run` is the whole run of characters satisfying `p` at the front of `s`. */
  predicate IsMaximalRun(s: string, run: string, p: char -> bool)
  {
    && 0 < |run| <= |s|
    && s[..|run|] == run
    && (forall k :: 0 <= k < |run| ==> p(run[k]))
    && (|run| == |s| || !p(s[|run|]))
  }

  /** A literal stretch of a pattern, matched ignoring case. */
  function LiteralIgnoreCase(s: string, lit: string): (r: Option<string>)
    ensures r.Some? <==> StartsWithIgnoreCase(s, lit)
    ensures r.Some? ==> r.value == s[|lit|..]
  {
    if StartsWithIgnoreCase(s, lit) then Some(s[|lit|..]) else None
  }

  /** A greedy `\d+` or `\w+`, as a captured group and what follows it. Every
      pattern element after such a run is a character outside its class, so
      backtracking never shortens it. */
  function Run(s: string, p: char -> bool): (r: Option<(string, string)>)
    ensures r.Some? ==> IsMaximalRun(s, r.value.0, p) && r.value.1 == s[|r.value.0|..]
  {
    var n := RunLength(s, p);
    if 0 < n then Some((s[..n], s[n..])) else None
  }

  /** The maximal run is the one a greedy `+` captures. */
  lemma RunOfMaximal(s: string, run: string, p: char -> bool)
    requires IsMaximalRun(s, run, p)
    ensures Run(s, p) == Some((run, s[|run|..]))
  {
    assert s == run + s[|run|..];
    RunOfConcat(run, s[|run|..], p);
  }

  /** The text `(\d+)-(\w+)-(\d+)` followed by `tail`, with the three groups
      as they are captured. */
  predicate GroupsShape(s: string, parts: NameParts, tail: string)
  {
    && IsMaximalRun(s, parts.day, IsDigit)
    && var s1 := s[|parts.day|..];
       && StartsWithIgnoreCase(s1, "-")
       && IsMaximalRun(s1[1..], parts.month, IsWordChar)
       && var s2 := s1[1 + |parts.month|..];
          && StartsWithIgnoreCase(s2, "-")
          && IsMaximalRun(s2[1..], parts.year, IsDigit)
          && StartsWithIgnoreCase(s2[1 + |parts.year|..], tail)
  }

  /** The common body of both patterns: the three groups, then `tail`, all
      anchored at the start of `s` but not at its end. A text matches with
      the groups `parts` exactly when it has that shape. */
  function MatchGroups(s: string, tail: string): (r: Option<NameParts>)
    ensures r.Some? ==> GroupsShape(s, r.value, tail)
  {
    var day :- Run(s, IsDigit);
    var r1 :- LiteralIgnoreCase(day.1, "-");
    var month :- Run(r1, IsWordChar);
    var r2 :- LiteralIgnoreCase(month.1, "-");
    var year :- Run(r2, IsDigit);
    var _ :- LiteralIgnoreCase(year.1, tail);
    Some(NameParts(day.0, month.0, year.0))
  }

  /** A text of the shape matches, with exactly its groups. */
  lemma MatchGroupsOfShape(s: string, parts: NameParts, tail: string)
    requires GroupsShape(s, parts, tail)
    ensures MatchGroups(s, tail) == Some(parts)
  {
    RunOfMaximal(s, parts.day, IsDigit);
    var s1 := s[|parts.day|..];
    RunOfMaximal(s1[1..], parts.month, IsWordChar);
    var s2 := s1[1 + |parts.month|..];
    assert s1[1..][|parts.month|..] == s2;
    RunOfMaximal(s2[1..], parts.year, IsDigit);
    assert s2[1..][|parts.year|..] == s2[1 + |parts.year|..];
  }

  /** `re.match(r'database-(\d+)-(\w+)-(\d+)\.zip', s, re.IGNORECASE)`:
      anchored at the start of `s`, not at its end. */
  function MatchDatabase(s: string): (r: Option<NameParts>)
    ensures r.Some? ==> StartsWithIgnoreCase(s, "database-") && GroupsShape(s[9..], r.value, ".zip")
  {
    var r0 :- LiteralIgnoreCase(s, "database-");
    MatchGroups(r0, ".zip")
  }

  /** `re.match(r'(\d+)-(\w+)-(\d+)-images\.zip', s, re.IGNORECASE)`. */
  function MatchImages(s: string): (r: Option<NameParts>)
    ensures r.Some? ==> GroupsShape(s, r.value, "-images.zip")
  {
    MatchGroups(s, "-images.zip")
  }

  /** A non-empty stretch of characters of one class. */
  predicate IsRunOf(s: string, p: char -> bool)
  {
    0 < |s| && forall k :: 0 <= k < |s| ==> p(s[k])
  }

  /** Text that spells `lit` in any case. */
  lemma SpelledIgnoringCase(text: string, lit: string, rest: string)
    requires Lower(text) == lit
    ensures StartsWithIgnoreCase(text + rest, lit)
  {
    assert forall k :: 0 <= k < |lit| ==> (text + rest)[k] == text[k] && LowerChar(text[k]) == lit[k];
  }

  /** `run` followed by a character outside its class is a maximal run. */
  lemma RunBeforeStop(run: string, after: string, p: char -> bool)
    requires IsRunOf(run, p) && 0 < |after| && !p(after[0])
    ensures IsMaximalRun(run + after, run, p)
  {
    assert (run + after)[..|run|] == run;
    assert (run + after)[|run|] == after[0];
  }

  /** The year group and the tail that closes the pattern. */
  lemma YearThenTail(y: string, tailText: string, tail: string, rest: string)
    requires IsRunOf(y, IsDigit)
    requires Lower(tailText) == tail && 0 < |tail| && !IsDigit(tail[0])
    ensures var s3 := y + (tailText + rest);
      IsMaximalRun(s3, y, IsDigit) && StartsWithIgnoreCase(s3[|y|..], tail)
  {
    assert !IsDigit(tailText[0]) by { assert LowerChar(tailText[0]) == tail[0]; }
    RunBeforeStop(y, tailText + rest, IsDigit);
    assert (y + (tailText + rest))[|y|..] == tailText + rest;
    SpelledIgnoringCase(tailText, tail, rest);
  }

  /** The three groups written out, then text spelling `tail`, have the shape
      of the groups: the text matches with exactly those groups. */
  lemma GroupsOfText(d: string, m: string, y: string, tailText: string, tail: string, rest: string)
    requires IsRunOf(d, IsDigit) && IsRunOf(m, IsWordChar) && IsRunOf(y, IsDigit)
    requires Lower(tailText) == tail && 0 < |tail| && !IsDigit(tail[0])
    ensures GroupsShape(d + ("-" + (m + ("-" + (y + (tailText + rest))))), NameParts(d, m, y), tail)
  {
    var s3 := y + (tailText + rest);
    var s2 := "-" + s3;
    var s1 := "-" + (m + s2);
    var s := d + s1;
    YearThenTail(y, tailText, tail, rest);
    RunBeforeStop(m, s2, IsWordChar);
    RunBeforeStop(d, s1, IsDigit);
    assert s[|d|..] == s1;
    assert s1[1..] == m + s2;
    assert s1[1 + |m|..] == s2;
    assert s2[1..] == s3;
    assert s2[1 + |y|..] == s3[|y|..];
  }

  /** The three groups written out with nothing after them have the shape
      of the groups with an empty tail. */
  lemma GroupsOfBareText(d: string, m: string, y: string)
    requires IsRunOf(d, IsDigit) && IsRunOf(m, IsWordChar) && IsRunOf(y, IsDigit)
    ensures GroupsShape(d + ("-" + (m + ("-" + y))), NameParts(d, m, y), "")
  {
    var s2 := "-" + y;
    var s1 := "-" + (m + s2);
    var s := d + s1;
    RunBeforeStop(m, s2, IsWordChar);
    RunBeforeStop(d, s1, IsDigit);
    assert s[|d|..] == s1;
    assert s1[1..] == m + s2;
    assert s1[1 + |m|..] == s2;
    assert s2[1..] == y;
    assert y[..|y|] == y;
  }

  /** `database-D-Month-Y.zip`, in any case and followed by anything, matches
      with its three parts captured verbatim. */
  lemma DatabaseNameMatches(head: string, d: string, m: string, y: string, ext: string, rest: string)
    requires Lower(head) == "database-" && Lower(ext) == ".zip"
    requires IsRunOf(d, IsDigit) && IsRunOf(m, IsWordChar) && IsRunOf(y, IsDigit)
    ensures MatchDatabase(head + (d + ("-" + (m + ("-" + (y + (ext + rest))))))) == Some(NameParts(d, m, y))
  {
    var groups := d + ("-" + (m + ("-" + (y + (ext + rest)))));
    SpelledIgnoringCase(head, "database-", groups);
    assert (head + groups)[9..] == groups;
    GroupsOfText(d, m, y, ext, ".zip", rest);
    MatchGroupsOfShape(groups, NameParts(d, m, y), ".zip");
  }

  /** `D-Month-Y-images.zip`, in any case and followed by anything, matches
      with its three parts captured verbatim. */
  lemma ImagesNameMatches(d: string, m: string, y: string, ext: string, rest: string)
    requires Lower(ext) == "-images.zip"
    requires IsRunOf(d, IsDigit) && IsRunOf(m, IsWordChar) && IsRunOf(y, IsDigit)
    ensures MatchImages(d + ("-" + (m + ("-" + (y + (ext + rest)))))) == Some(NameParts(d, m, y))
  {
    GroupsOfText(d, m, y, ext, "-images.zip", rest);
    MatchGroupsOfShape(d + ("-" + (m + ("-" + (y + (ext + rest))))), NameParts(d, m, y), "-images.zip");
  }

  /** `re.search`: the match that starts leftmost, scanning from index `i`. */
  function SearchFrom(s: string, i: nat, matcher: string -> Option<NameParts>): (r: Option<NameParts>)
    requires i <= |s|
    ensures r.None? ==> forall k :: i <= k <= |s| ==> matcher(s[k..]).None?
    ensures r.Some? ==> exists k :: i <= k <= |s| && matcher(s[k..]) == r
                          && forall j :: i <= j < k ==> matcher(s[j..]).None?
    decreases |s| - i
  {
    if matcher(s[i..]).Some? then matcher(s[i..])
    else if i == |s| then None
    else SearchFrom(s, i + 1, matcher)
  }

  function Search(s: string, matcher: string -> Option<NameParts>): (r: Option<NameParts>)
    ensures r.None? <==> forall k :: 0 <= k <= |s| ==> matcher(s[k..]).None?
    ensures r.Some? ==> exists k :: 0 <= k <= |s| && matcher(s[k..]) == r
                          && forall j :: 0 <= j < k ==> matcher(s[j..]).None?
  {
    SearchFrom(s, 0, matcher)
  }

  /** A search finds a match at the very start when there is one. */
  lemma SearchFindsMatchAtStart(s: string, matcher: string -> Option<NameParts>)
    requires matcher(s).Some?
    ensures Search(s, matcher) == matcher(s)
  {
    assert s[0..] == s;
  }

  /** A search of a path finds the match that starts right after a folder
      prefix in which no position matches. */
  lemma SearchSkipsPrefix(prefix: string, name: string, matcher: string -> Option<NameParts>)
    requires matcher(name).Some?
    requires forall j :: 0 <= j < |prefix| ==> matcher((prefix + name)[j..]).None?
    ensures Search(prefix + name, matcher) == matcher(name)
  {
    var s := prefix + name;
    assert s[|prefix|..] == name;
    var r := SearchFrom(s, 0, matcher);
    assert r.Some?;
    var k :| 0 <= k <= |s| && matcher(s[k..]) == r && forall j :: 0 <= j < k ==> matcher(s[j..]).None?;
    assert k == |prefix|;
  }

  // ---------------------------------------------------------------------
  // Choosing the archives from a folder listing.
  // ---------------------------------------------------------------------

  /** A listing entry taken as the database archive. */
  predicate IsDatabaseArchive(name: string)
  {
    EndsWithIgnoreCase(name, ".zip") && MatchDatabase(name).Some?
  }

  /** A listing entry taken as the images archive: the images pattern is
      tried only on `.zip` names the database pattern rejected. */
  predicate IsImagesArchive(name: string)
  {
    EndsWithIgnoreCase(name, ".zip") && MatchDatabase(name).None? && MatchImages(name).Some?
  }

  datatype Kind = DatabaseArchive | ImagesArchive | OtherEntry

  /** The branch `find_zip_files` takes for one listing entry. */
  function Classify(name: string): (kind: Kind)
    ensures kind == DatabaseArchive <==> IsDatabaseArchive(name)
    ensures kind == ImagesArchive <==> IsImagesArchive(name)
  {
    if EndsWithIgnoreCase(name, ".zip") then
      if MatchDatabase(name).Some? then DatabaseArchive
      else if MatchImages(name).Some? then ImagesArchive
      else OtherEntry
    else OtherEntry
  }

  /** `k` is the last position of `xs` that `classify` puts in `kind`. */
  ghost predicate IsLastOfKind(xs: seq<string>, k: int, classify: string -> Kind, kind: Kind)
  {
    0 <= k < |xs| && classify(xs[k]) == kind && forall j :: k < j < |xs| ==> classify(xs[j]) != kind
  }

  /** The entry of `kind` that the last assignment of the scan leaves in place. */
  ghost predicate ChosenEntry(folder: string, xs: seq<string>, classify: string -> Kind, kind: Kind, chosen: Option<string>)
  {
    && (chosen.None? <==> forall k :: 0 <= k < |xs| ==> classify(xs[k]) != kind)
    && (chosen.Some? ==> exists k :: IsLastOfKind(xs, k, classify, kind) && chosen.value == Join(folder, xs[k]))
  }

  /** The loop of `find_zip_files` over any classification of the entries. */
  method ScanListing(folder: string, listing: seq<string>, classify: string -> Kind)
    returns (database: Option<string>, images: Option<string>)
    ensures ChosenEntry(folder, listing, classify, DatabaseArchive, database)
    ensures ChosenEntry(folder, listing, classify, ImagesArchive, images)
  {
    database, images := None, None;
    ghost var dbAt, imgAt := -1, -1;
    var i := 0;
    while i < |listing|
      invariant 0 <= i <= |listing|
      invariant database.None? <==> dbAt < 0
      invariant dbAt < 0 ==> forall k :: 0 <= k < i ==> classify(listing[k]) != DatabaseArchive
      invariant 0 <= dbAt ==> IsLastOfKind(listing[..i], dbAt, classify, DatabaseArchive)
      invariant 0 <= dbAt ==> database == Some(Join(folder, listing[dbAt]))
      invariant images.None? <==> imgAt < 0
      invariant imgAt < 0 ==> forall k :: 0 <= k < i ==> classify(listing[k]) != ImagesArchive
      invariant 0 <= imgAt ==> IsLastOfKind(listing[..i], imgAt, classify, ImagesArchive)
      invariant 0 <= imgAt ==> images == Some(Join(folder, listing[imgAt]))
    {
      var name := listing[i];
      match classify(name) {
        case DatabaseArchive =>
          database, dbAt := Some(Join(folder, name)), i;
        case ImagesArchive =>
          images, imgAt := Some(Join(folder, name)), i;
        case OtherEntry =>
      }
      i := i + 1;
    }
    assert listing[..i] == listing;
  }

  /** `find_zip_files`: every `.zip` entry is tested in listing order, the
      images pattern only where the database pattern failed, and a later
      match replaces an earlier one. */
  method FindZipFiles(folder: string, listing: seq<string>) returns (database: Option<string>, images: Option<string>)
    ensures ChosenEntry(folder, listing, Classify, DatabaseArchive, database)
    ensures ChosenEntry(folder, listing, Classify, ImagesArchive, images)
  {
    database, images := ScanListing(folder, listing, Classify);
  }

  // ---------------------------------------------------------------------
  // Counting archive entries.
  // ---------------------------------------------------------------------

  predicate IsXmlEntry(name: string)
  {
    EndsWithIgnoreCase(name, ".xml")
  }

  predicate IsImageEntry(name: string)
  {
    || EndsWithIgnoreCase(name, ".jpg")
    || EndsWithIgnoreCase(name, ".jpeg")
    || EndsWithIgnoreCase(name, ".png")
    || EndsWithIgnoreCase(name, ".gif")
    || EndsWithIgnoreCase(name, ".bmp")
  }

  /** `len([f for f in names if p(f)])`. */
  function CountWhere(names: seq<string>, p: string -> bool): (n: nat)
    ensures n <= |names|
    ensures n == 0 <==> forall k :: 0 <= k < |names| ==> !p(names[k])
    ensures n == |names| <==> forall k :: 0 <= k < |names| ==> p(names[k])
  {
    if names == [] then 0
    else
      var init := names[..|names| - 1];
      assert forall k :: 0 <= k < |init| ==> init[k] == names[k];
      CountWhere(init, p) + (if p(names[|names| - 1]) then 1 else 0)
  }

  /** The positions of the entries `p` accepts. */
  ghost function MatchingIndices(names: seq<string>, p: string -> bool): set<int>
  {
    set k | 0 <= k < |names| && p(names[k])
  }

  /** The count is the number of accepted entries. */
  lemma {:induction false} CountWhereIsMatchingIndices(names: seq<string>, p: string -> bool)
    ensures CountWhere(names, p) == |MatchingIndices(names, p)|
  {
    if names != [] {
      var n := |names| - 1;
      var init := names[..n];
      CountWhereIsMatchingIndices(init, p);
      var before := MatchingIndices(init, p);
      assert forall k :: 0 <= k < n ==> init[k] == names[k];
      if p(names[n]) {
        assert MatchingIndices(names, p) == before + {n};
      } else {
        assert MatchingIndices(names, p) == before;
      }
    }
  }
}

=== FILE: filter_monitor.dfy ===
/** What happens when the filter job that follows an upload ends. The
    monitor runs on its own thread in the tool; here it is one step from the
    way the job ended and the upload id TopicUploadTask holds to the updated
    store, the notice shown, and the id it holds afterwards. */
module FilterMonitor {
  import opened Optional
  import opened Timestamps
  import opened UploadStore

  /** How waiting on the job ended: with an exit code, or with an exception. */
  datatype JobEnd = Exited(code: int) | Raised

  datatype Notice =
    | InterruptedWarning      // the job was closed before it finished
    | CompletedInfo           // finished and recorded
    | RecordNotUpdatedWarning // finished, but the record could not be updated
    | NoUploadWarning         // finished, but no upload id was held
    | MonitorError            // waiting on the job raised

  datatype Monitored = Monitored(store: Store, currentUpload: Option<int>, notice: Notice)

  /** The status each way of ending records: a non-zero exit is taken as the
      operator closing the console window. */
  function StatusAfter(end: JobEnd): (s: Status)
    ensures s == Completed <==> end == Exited(0)
    ensures s == Interrupted <==> end.Exited? && end.code != 0
    ensures s == Failed <==> end.Raised?
  {
    match end
    case Exited(code) => if code != 0 then Interrupted else Completed
    case Raised => Failed
  }

  /** `monitor_filter_process`, with `parent.after` available. Only a zero
      exit stamps the record; the held upload id is cleared in every branch. */
  function MonitorFilterJob(store: Store, currentUpload: Option<int>, end: JobEnd, now: Moment): (r: Monitored)
    ensures r.currentUpload.None?
    ensures r.store == UpdateStatus(store, currentUpload, StatusAfter(end), end == Exited(0), now).store
    ensures end.Exited? && end.code != 0 ==> r.notice == InterruptedWarning
    ensures end.Raised? ==> r.notice == MonitorError
    ensures end == Exited(0) ==>
              r.notice == (if currentUpload.None? then NoUploadWarning
                           else if UpdateStatus(store, currentUpload, Completed, true, now).ok then CompletedInfo
                           else RecordNotUpdatedWarning)
  {
    match end
    case Exited(code) =>
      if code != 0 then
        var u := UpdateStatus(store, currentUpload, Interrupted, false, now);
        Monitored(u.store, None, InterruptedWarning)
      else if currentUpload.None? then
        Monitored(store, None, NoUploadWarning)
      else
        var u := UpdateStatus(store, currentUpload, Completed, true, now);
        Monitored(u.store, None, if u.ok then CompletedInfo else RecordNotUpdatedWarning)
    case Raised =>
      var u := UpdateStatus(store, currentUpload, Failed, false, now);
      Monitored(u.store, None, MonitorError)
  }

  /** The held upload's row ends in the status its job's ending calls for,
      carries the current time exactly when the job exited with 0, and every
      other row is untouched. */
  lemma MonitorRecordsOutcome(t: Table, id: int, end: JobEnd, now: Moment)
    requires t.hasStatus && HasId(t.rows, id)
    ensures var r := MonitorFilterJob(Ready(t), Some(id), end, now);
      && r.currentUpload.None?
      && r.store.Ready?
      && |r.store.table.rows| == |t.rows|
      && forall k :: 0 <= k < |t.rows| ==>
           var (before, after) := (t.rows[k], r.store.table.rows[k]);
           if before.id == id then
             && after.status == Some(StatusAfter(end))
             && after.timestamp == (if end == Exited(0) then Some(FormatStored(now)) else before.timestamp)
           else after == before
  {
  }

  /** A pending upload whose filter job exits with 0 is completed, and its
      timestamp reads back as the moment of completion. */
  lemma CompletedUploadIsStamped(t: Table, id: int, now: Moment)
    requires t.hasStatus && HasId(t.rows, id)
    ensures var r := MonitorFilterJob(Ready(t), Some(id), Exited(0), now);
      && r.notice == CompletedInfo
      && forall k :: 0 <= k < |r.store.table.rows| && r.store.table.rows[k].id == id ==>
           && r.store.table.rows[k].status == Some(Completed)
           && r.store.table.rows[k].timestamp.Some?
           && ParseStored(r.store.table.rows[k].timestamp.value) == Some(now)
  {
    MonitorRecordsOutcome(t, id, Exited(0), now);
    ParseStoredOfFormat(now);
  }
}

=== FILE: history_dialog.dfy ===
/** The upload history as the history dialog shows it and as its CSV export
    writes it: each record becomes a row of six values with a readable
    timestamp, and the export turns readable timestamps back into the stored
    form before writing the header and the rows. */
module HistoryDialog {
  import opened Optional
  import opened Text
  import opened Timestamps
  import opened UploadStore

  /** The label shown for a record that has not been stamped. */
  const PendingLabel := "Pending"

  /** How the dialog shows a stored timestamp: no value, the text "None" or
      the empty text read as pending; a stored timestamp is shown on the
      12-hour clock without seconds; anything else is shown as it is. */
  function DisplayTimestamp(ts: Option<string>): (d: string)
    ensures ts.None? || ts.value == "None" || ts.value == "" ==> d == PendingLabel
    ensures ts.Some? && ts.value != "None" && ts.value != "" ==>
              d == (if ParseStored(ts.value).Some? then FormatDisplay(ParseStored(ts.value).value) else ts.value)
  {
    if ts.None? || ts.value == "None" || ts.value == "" then PendingLabel
    else match ParseStored(ts.value)
      case Some(t) => FormatDisplay(t)
      case None => ts.value
  }

  /** One row of the dialog's table; the status is not shown. */
  datatype DisplayRow = DisplayRow(
    uploaded: string, topicMonth: string, xmlFiles: int, images: int, databaseZip: string, imagesZip: string)

  function ToDisplayRow(u: Upload): DisplayRow
  {
    DisplayRow(DisplayTimestamp(u.timestamp), u.topicMonth, u.xmlFiles, u.images, u.databaseZip, u.imagesZip)
  }

  /** The rows of the history dialog, one per record, in history order. */
  function DisplayRows(history: seq<Upload>): (rows: seq<DisplayRow>)
    ensures |rows| == |history|
    ensures forall k :: 0 <= k < |history| ==>
              && rows[k].uploaded == DisplayTimestamp(history[k].timestamp)
              && rows[k].topicMonth == history[k].topicMonth
              && rows[k].xmlFiles == history[k].xmlFiles
              && rows[k].images == history[k].images
              && rows[k].databaseZip == history[k].databaseZip
              && rows[k].imagesZip == history[k].imagesZip
  {
    seq(|history|, k requires 0 <= k < |history| => ToDisplayRow(history[k]))
  }

  // ---------------------------------------------------------------------
  // export_to_csv
  // ---------------------------------------------------------------------

  const Header: seq<string> := [
    "Uploaded Date & Time", "Topic Month", "No of XML Files", "No of Images", "Database ZIP", "Images ZIP"]

  /** How the export writes a shown timestamp: the pending label and anything
      that does not read as a 12-hour timestamp are kept; a 12-hour timestamp
      is written in the stored form with zero seconds. */
  function ExportTimestamp(shown: string): (v: string)
    ensures shown == PendingLabel || ParseDisplay(shown).None? ==> v == shown
    ensures shown != PendingLabel && ParseDisplay(shown).Some? ==>
              ParseStored(v) == ParseDisplay(shown) && |v| == 19
  {
    if shown == PendingLabel then shown
    else match ParseDisplay(shown)
      case Some(t) =>
        ParseStoredOfFormat(t);
        FormatStored(t)
      case None => shown
  }

  /** One line of the file: the cells of a shown row under the header's
      columns, with the timestamp converted and the counts in decimal. */
  function CsvRow(row: DisplayRow): (cells: seq<string>)
    ensures |cells| == |Header|
    ensures cells[0] == ExportTimestamp(row.uploaded) && cells[1] == row.topicMonth
    ensures row.xmlFiles >= 0 ==> AllDigits(cells[2]) && DigitsValue(cells[2]) == row.xmlFiles
    ensures row.images >= 0 ==> AllDigits(cells[3]) && DigitsValue(cells[3]) == row.images
    ensures cells[4] == row.databaseZip && cells[5] == row.imagesZip
  {
    var stamp, xml, images := ExportTimestamp(row.uploaded), IntToString(row.xmlFiles), IntToString(row.images);
    [stamp, row.topicMonth, xml, images, row.databaseZip, row.imagesZip]
  }

  datatype CsvExport = NoDataWarning | WriteCsv(lines: seq<seq<string>>)

  /** The table `export_to_csv` writes: the header, then one line per shown
      row in the order shown. With no rows it warns and writes nothing. */
  function ExportToCsv(rows: seq<DisplayRow>): (r: CsvExport)
    ensures r.NoDataWarning? <==> rows == []
    ensures r.WriteCsv? ==>
              && |r.lines| == |rows| + 1
              && r.lines[0] == Header
              && forall k :: 0 <= k < |rows| ==> r.lines[k + 1] == CsvRow(rows[k])
  {
    var lines := [Header] + seq(|rows|, k requires 0 <= k < |rows| => CsvRow(rows[k]));
    if |lines| <= 1 then NoDataWarning else WriteCsv(lines)
  }

  // ---------------------------------------------------------------------
  // Round trip of a timestamp through the dialog and the export.
  // ---------------------------------------------------------------------

  /** A shown timestamp never reads as the pending label. */
  lemma DisplayIsNotPending(t: Moment)
    ensures FormatDisplay(t) != PendingLabel
  {
    assert FormatDisplay(t)[0] == Pad4(t.year)[0];
    assert IsDigit(FormatDisplay(t)[0]);
  }

  /** Any timestamp the dialog can read comes back from the export as the
      same minute in the stored form, with seconds `00`. */
  lemma ExportOfDisplay(ts: string, t: Moment)
    requires ParseStored(ts) == Some(t)
    ensures ExportTimestamp(DisplayTimestamp(Some(ts))) == FormatStored(t.(second := 0))
  {
    assert ts != "None" && ts != "";
    DisplayIsNotPending(t);
    ParseDisplayOfFormat(t);
  }

  /** For a timestamp the tool wrote, the export reproduces it with its
      seconds replaced by `00`. */
  lemma ExportOfStoredTimestamp(t: Moment)
    ensures var ts := FormatStored(t);
      ExportTimestamp(DisplayTimestamp(Some(ts))) == ts[..17] + "00"
  {
    ParseStoredOfFormat(t);
    ExportOfDisplay(FormatStored(t), t);
    ZeroSecondsText(t);
  }
}

=== FILE: history_order.dfy ===
/** The order in which history listings come back from the record store.
    SQLite compares TEXT values under its default BINARY collation, byte by
    byte on their UTF-8 encoding, which orders strings by code point; NULL
    is placed explicitly by the queries. */
module HistoryOrder {
  import opened Optional

  /** `a <= b` under SQLite's BINARY collation. */
  predicate TextLeq(a: string, b: string)
    decreases |a|
  {
    |a| == 0 || (0 < |b| && (a[0] < b[0] || (a[0] == b[0] && TextLeq(a[1..], b[1..]))))
  }

  lemma {:induction false} TextLeqTotal(a: string, b: string)
    ensures TextLeq(a, b) || TextLeq(b, a)
    decreases |a|
  {
    if 0 < |a| && 0 < |b| && a[0] == b[0] {
      TextLeqTotal(a[1..], b[1..]);
    }
  }

  lemma {:induction false} TextLeqTransitive(a: string, b: string, c: string)
    requires TextLeq(a, b) && TextLeq(b, c)
    ensures TextLeq(a, c)
    decreases |a|
  {
    if 0 < |a| && a[0] == b[0] && b[0] == c[0] {
      TextLeqTransitive(a[1..], b[1..], c[1..]);
    }
  }

  lemma {:induction false} TextLeqAntisymmetric(a: string, b: string)
    requires TextLeq(a, b) && TextLeq(b, a)
    ensures a == b
    decreases |a|
  {
    if 0 < |a| {
      TextLeqAntisymmetric(a[1..], b[1..]);
      assert a == [a[0]] + a[1..] && b == [b[0]] + b[1..];
    }
  }

  /** The listing key of the upload history,
      `ORDER BY CASE WHEN ts IS NULL THEN 1 ELSE 0 END, ts DESC`:
      whether a row whose timestamp is `a` may be listed before one whose
      timestamp is `b`. Timestamped rows come first, newest first; rows
      without a timestamp come last. */
  predicate ListedBefore(a: Option<string>, b: Option<string>)
  {
    match (a, b)
    case (Some(x), Some(y)) => TextLeq(y, x)
    case (Some(_), None) => true
    case (None, Some(_)) => false
    case (None, None) => true
  }

  lemma ListedBeforeTotal(a: Option<string>, b: Option<string>)
    ensures ListedBefore(a, b) || ListedBefore(b, a)
  {
    if a.Some? && b.Some? {
      TextLeqTotal(a.value, b.value);
    }
  }

  lemma ListedBeforeTransitive(a: Option<string>, b: Option<string>, c: Option<string>)
    requires ListedBefore(a, b) && ListedBefore(b, c)
    ensures ListedBefore(a, c)
  {
    if a.Some? && b.Some? && c.Some? {
      TextLeqTransitive(c.value, b.value, a.value);
    }
  }

  /** Every pair of rows is in listing order. */
  ghost predicate SortedBy<T>(xs: seq<T>, key: T -> Option<string>)
  {
    forall i, j :: 0 <= i < j < |xs| ==> ListedBefore(key(xs[i]), key(xs[j]))
  }

  /** Places `x` in front of the first row it may precede. */
  function Insert<T(==)>(x: T, xs: seq<T>, key: T -> Option<string>): (r: seq<T>)
    requires SortedBy(xs, key)
    ensures SortedBy(r, key)
    ensures multiset(r) == multiset(xs) + multiset{x}
    ensures forall k :: 0 <= k < |r| ==> r[k] == x || r[k] in xs
  {
    if xs == [] || ListedBefore(key(x), key(xs[0])) then
      InsertAtFront(x, xs, key);
      [x] + xs
    else
      var rest := Insert(x, xs[1..], key);
      assert xs == [xs[0]] + xs[1..];
      InsertBehind(x, xs, rest, key);
      [xs[0]] + rest
  }

  lemma InsertAtFront<T>(x: T, xs: seq<T>, key: T -> Option<string>)
    requires SortedBy(xs, key) && (xs == [] || ListedBefore(key(x), key(xs[0])))
    ensures SortedBy([x] + xs, key)
  {
    forall j | 0 <= j < |xs| ensures ListedBefore(key(x), key(xs[j])) {
      if 0 < j { ListedBeforeTransitive(key(x), key(xs[0]), key(xs[j])); }
    }
    ConsSorted(x, xs, key);
  }

  lemma InsertBehind<T>(x: T, xs: seq<T>, rest: seq<T>, key: T -> Option<string>)
    requires SortedBy(xs, key) && xs != [] && !ListedBefore(key(x), key(xs[0]))
    requires SortedBy(rest, key)
    requires forall k :: 0 <= k < |rest| ==> rest[k] == x || rest[k] in xs[1..]
    ensures SortedBy([xs[0]] + rest, key)
  {
    ListedBeforeTotal(key(x), key(xs[0]));
    forall k | 0 <= k < |rest| ensures ListedBefore(key(xs[0]), key(rest[k])) {
      if rest[k] != x {
        var j :| 0 <= j < |xs[1..]| && xs[1..][j] == rest[k];
        assert xs[j + 1] == rest[k];
      }
    }
    ConsSorted(xs[0], rest, key);
  }

  /** A row listed before every row of a sorted sequence can head it. */
  lemma ConsSorted<T>(y: T, rest: seq<T>, key: T -> Option<string>)
    requires SortedBy(rest, key)
    requires forall k :: 0 <= k < |rest| ==> ListedBefore(key(y), key(rest[k]))
    ensures SortedBy([y] + rest, key)
  {
    var r := [y] + rest;
    forall i, j | 0 <= i < j < |r| ensures ListedBefore(key(r[i]), key(r[j])) {
      assert r[j] == rest[j - 1];
      if 0 < i { assert r[i] == rest[i - 1]; }
    }
  }

  /** Stable insertion sort into listing order. */
  function SortBy<T(==)>(xs: seq<T>, key: T -> Option<string>): (r: seq<T>)
    ensures SortedBy(r, key)
    ensures multiset(r) == multiset(xs)
  {
    if xs == [] then []
    else
      assert xs == [xs[0]] + xs[1..];
      Insert(xs[0], SortBy(xs[1..], key), key)
  }
}

=== FILE: optional.dfy ===
/** Failure-compatible wrappers used by every other module: an absent value
    (a Python `None`) and an operation that either yields a value or reports
    why it did not. */
module Optional {

  datatype Option<+T> = None | Some(value: T) {
    predicate IsFailure() { None? }

    function PropagateFailure<U>(): Option<U>
      requires None?
    {
      None
    }

    function Extract(): T
      requires Some?
    {
      value
    }
  }

  datatype Result<+T, +E> = Ok(value: T) | Err(error: E) {
    predicate IsFailure() { Err? }

    function PropagateFailure<U>(): Result<U, E>
      requires Err?
    {
      Err(error)
    }

    function Extract(): T
      requires Ok?
    {
      value
    }
  }
}

=== FILE: row_ids.dfy ===
/** SQLite's AUTOINCREMENT: a new row id is one past both the largest id the
    table has ever handed out and the largest id it now holds. */
module RowIds {

  function MaxOf(ids: seq<int>): (m: int)
    ensures forall k :: 0 <= k < |ids| ==> ids[k] <= m
  {
    if ids == [] then 0
    else var m := MaxOf(ids[..|ids| - 1]);
      if ids[|ids| - 1] > m then ids[|ids| - 1] else m
  }

  /** The id the next insert receives, given the counter and the ids present. */
  function NextRowId(lastId: int, ids: seq<int>): (id: int)
    ensures lastId < id
    ensures forall k :: 0 <= k < |ids| ==> ids[k] < id
  {
    (if lastId > MaxOf(ids) then lastId else MaxOf(ids)) + 1
  }
}

=== FILE: teton_export.dfy ===
/** The Teton content export: a batch job that must exit cleanly and leave
    seven known files behind, which are then copied into a folder named
    after the day and logged in the `exports` table. Each step has its own
    failure, and a failure skips every later step. The file system, the job
    and the clock are inputs. */
module TetonExport {
  import opened Optional
  import opened Text
  import opened Timestamps
  import opened HistoryOrder
  import opened WinPath
  import opened RowIds

  /** The files the export job must produce, in the order they are checked and copied. */
  const ExportFiles: seq<string> := [
    "checksums.md5",
    "eep_anatomyimages.zip",
    "eep_cdr.zip",
    "eep_cochrane.zip",
    "eep_dermimages.zip",
    "eep_hp_diag.zip",
    "eep_metadata.xls"]

  /** One row of `exports`. */
  datatype ExportRecord = ExportRecord(id: int, timestamp: string, folder: string)

  /** The table and its AUTOINCREMENT counter. */
  datatype ExportTable = ExportTable(lastId: int, rows: seq<ExportRecord>)

  /** The database file: missing, present without the table, or holding it. */
  datatype ExportStore = NoExportFile | NoExportTable | ExportsReady(table: ExportTable)

  predicate HasExportId(rows: seq<ExportRecord>, id: int)
  {
    exists k :: 0 <= k < |rows| && rows[k].id == id
  }

  /** `init_export_db`: creates the table if it does not exist. A table
      created here is empty and its AUTOINCREMENT counter is at 0. */
  function InitExportDb(store: ExportStore, historyFolderAvailable: bool): (r: ExportStore)
    ensures !historyFolderAvailable ==> r == store
    ensures historyFolderAvailable ==> r.ExportsReady?
    ensures historyFolderAvailable && !store.ExportsReady? ==> r == ExportsReady(ExportTable(0, []))
    ensures store.ExportsReady? ==> r == store
  {
    if !historyFolderAvailable then store
    else match store
      case ExportsReady(_) => store
      case _ => ExportsReady(ExportTable(0, []))
  }

  function NextExportId(t: ExportTable): (id: int)
    ensures t.lastId < id
    ensures !HasExportId(t.rows, id)
  {
    var ids := seq(|t.rows|, k requires 0 <= k < |t.rows| => t.rows[k].id);
    assert forall k :: 0 <= k < |t.rows| ==> t.rows[k].id == ids[k];
    NextRowId(t.lastId, ids)
  }

  /** Initialising twice is the same as initialising once. */
  lemma InitExportDbIdempotent(store: ExportStore, historyFolderAvailable: bool)
    ensures InitExportDb(InitExportDb(store, historyFolderAvailable), historyFolderAvailable)
         == InitExportDb(store, historyFolderAvailable)
  {
  }

  /** After initialisation with the history folder in place, logging an
      export succeeds; into a freshly created table it logs as id 1. */
  lemma LogAfterInitExportDb(store: ExportStore, exportFolder: string, now: Moment, historyFolderExists: bool)
    ensures var r := LogExport(InitExportDb(store, true), exportFolder, now, historyFolderExists);
      && r.id.Some?
      && (!store.ExportsReady? ==> r.id == Some(1) && |r.store.table.rows| == 1)
  {
    if !store.ExportsReady? {
      var t := ExportTable(0, []);
      assert NextExportId(t) == 1;
    }
  }

  datatype ExportLogged = ExportLogged(id: Option<int>, store: ExportStore)

  /** `log_export_to_db`: a record stamped with the current time and naming
      the folder by its base name, under a fresh id. Unlike the upload log,
      it does not create the history folder first: when the folder exists a
      missing file is created empty by the connection and the insert then
      fails, and when it does not the connection itself fails and nothing
      is created. */
  function LogExport(store: ExportStore, exportFolder: string, now: Moment, historyFolderExists: bool): (r: ExportLogged)
    ensures r.id.Some? <==> store.ExportsReady?
    ensures r.id.None? ==> r.store == (if store.NoExportFile? && historyFolderExists then NoExportTable else store)
    ensures r.id.Some? ==>
              && !HasExportId(store.table.rows, r.id.value)
              && r.store == ExportsReady(ExportTable(r.id.value, store.table.rows +
                   [ExportRecord(r.id.value, FormatStored(now), Basename(exportFolder))]))
  {
    match store
    case ExportsReady(t) =>
      var id := NextExportId(t);
      ExportLogged(Some(id), ExportsReady(ExportTable(id, t.rows + [ExportRecord(id, FormatStored(now), Basename(exportFolder))])))
    case NoExportFile => ExportLogged(None, if historyFolderExists then NoExportTable else NoExportFile)
    case NoExportTable => ExportLogged(None, NoExportTable)
  }

  function ExportTimestampOf(e: ExportRecord): Option<string> { Some(e.timestamp) }

  /** `get_export_history`: every record once, newest timestamp first; empty
      when the file is missing or holds no table. */
  function ExportHistory(store: ExportStore): (r: seq<ExportRecord>)
    ensures !store.ExportsReady? ==> r == []
    ensures store.ExportsReady? ==> multiset(r) == multiset(store.table.rows)
    ensures forall i, j :: 0 <= i < j < |r| ==> TextLeq(r[j].timestamp, r[i].timestamp)
  {
    match store
    case ExportsReady(t) =>
      var r := SortBy(t.rows, ExportTimestampOf);
      assert forall i, j :: 0 <= i < j < |r| ==> ListedBefore(Some(r[i].timestamp), Some(r[j].timestamp));
      r
    case _ => []
  }

  // ---------------------------------------------------------------------
  // run_teton_export
  // ---------------------------------------------------------------------

  /** `at` gives, in increasing order, the position in `files` of each entry of `kept`. */
  predicate Picks(at: seq<nat>, kept: seq<string>, files: seq<string>)
  {
    && |at| == |kept|
    && (forall i :: 0 <= i < |at| ==> at[i] < |files| && files[at[i]] == kept[i])
    && (forall i, j :: 0 <= i < j < |at| ==> at[i] < at[j])
  }

  /** `kept` is `files` with some entries dropped and the rest in order. */
  ghost predicate IsSubsequence(kept: seq<string>, files: seq<string>)
  {
    exists at :: Picks(at, kept, files)
  }

  /** The export files absent from the export directory, in list order. */
  function MissingFiles(files: seq<string>, present: set<string>): (missing: seq<string>)
    ensures |missing| <= |files|
    ensures IsSubsequence(missing, files)
    ensures forall f :: f in missing <==> f in files && f !in present
    ensures missing == [] <==> forall k :: 0 <= k < |files| ==> files[k] in present
  {
    if files == [] then
      assert Picks([], [], files);
      []
    else
      var rest := MissingFiles(files[1..], present);
      assert forall k :: 1 <= k < |files| ==> files[k] == files[1..][k - 1];
      KeptInOrder(files, rest, files[0] !in present);
      if files[0] in present then rest else [files[0]] + rest
  }

  /** Positions in the tail of `files` shifted to positions in `files`. */
  lemma PicksShifted(at: seq<nat>, kept: seq<string>, files: seq<string>)
    requires 0 < |files| && Picks(at, kept, files[1..])
    ensures Picks(seq(|at|, i requires 0 <= i < |at| => at[i] + 1), kept, files)
  {
    var shifted := seq(|at|, i requires 0 <= i < |at| => at[i] + 1);
    forall i | 0 <= i < |at| ensures shifted[i] < |files| && files[shifted[i]] == kept[i] {
      assert files[1..][at[i]] == files[at[i] + 1];
    }
  }

  /** Picking the head of `files` first keeps the positions increasing. */
  lemma PicksHead(at: seq<nat>, kept: seq<string>, files: seq<string>)
    requires 0 < |files| && Picks(at, kept, files) && forall i :: 0 <= i < |at| ==> 0 < at[i]
    ensures Picks([0] + at, [files[0]] + kept, files)
  {
    var at2, kept2 := [0] + at, [files[0]] + kept;
    forall i | 0 <= i < |at2| ensures at2[i] < |files| && files[at2[i]] == kept2[i] {
      if 0 < i { assert at2[i] == at[i - 1] && kept2[i] == kept[i - 1]; }
    }
    forall i, j | 0 <= i < j < |at2| ensures at2[i] < at2[j] {
      if 0 < i { assert at2[i] == at[i - 1] && at2[j] == at[j - 1]; }
    }
  }

  /** Keeping or dropping the head of `files` keeps a subsequence of its tail a subsequence. */
  lemma KeptInOrder(files: seq<string>, rest: seq<string>, keep: bool)
    requires 0 < |files| && IsSubsequence(rest, files[1..])
    ensures IsSubsequence(if keep then [files[0]] + rest else rest, files)
  {
    var at :| Picks(at, rest, files[1..]);
    PicksShifted(at, rest, files);
    var shifted := seq(|at|, i requires 0 <= i < |at| => at[i] + 1);
    if keep {
      PicksHead(shifted, rest, files);
    }
  }

  /** Everything the export depends on outside the tool. */
  datatype ExportEnv = ExportEnv(
    batchFileExists: bool,
    exitCode: int,
    exportDirectory: set<string>,   // names for which `os.path.exists` holds in the export directory
    folderCreated: bool,            // whether the dated folder can be created
    copyFailsAt: Option<nat>,       // position in the file list of the first copy that raises
    moduleFolder: string,           // the folder of teton_content_export.py
    folderTime: Moment,             // the clock when the dated folder is named
    logTime: Moment,                // the clock when the record is written
    historyFolderExists: bool)      // whether the history folder exists when the record is written

  datatype ExportFailure =
    | BatchFileMissing
    | ExitedWithError(code: int)
    | FilesMissing(files: seq<string>)
    | FolderNotCreated
    | CopyFailed(file: string)

  /** What one run leaves behind: its outcome (the dated folder on success),
      whether the job was started, which files were copied, the exporter's
      export folder, the store, and the id of the logged record. */
  datatype ExportRun = ExportRun(
    outcome: Result<string, ExportFailure>,
    jobStarted: bool,
    copied: seq<string>,
    exportFolder: Option<string>,
    store: ExportStore,
    loggedId: Option<int>)

  /** `run_teton_export`. */
  function RunExport(env: ExportEnv, exportFolder: Option<string>, store: ExportStore): (r: ExportRun)
    // a missing batch file fails before the job is started
    ensures !env.batchFileExists ==> r == ExportRun(Err(BatchFileMissing), false, [], exportFolder, store, None)
    // a failing job fails before verification
    ensures env.batchFileExists && env.exitCode != 0 ==>
              r == ExportRun(Err(ExitedWithError(env.exitCode)), true, [], exportFolder, store, None)
    // missing output fails before anything is copied
    ensures env.batchFileExists && env.exitCode == 0 && MissingFiles(ExportFiles, env.exportDirectory) != [] ==>
              r == ExportRun(Err(FilesMissing(MissingFiles(ExportFiles, env.exportDirectory))), true, [], exportFolder, store, None)
    // a folder that cannot be created, or a copy that raises, fails the export
    ensures env.batchFileExists && env.exitCode == 0 && MissingFiles(ExportFiles, env.exportDirectory) == [] && !env.folderCreated ==>
              r.outcome == Err(FolderNotCreated)
    ensures env.batchFileExists && env.exitCode == 0 && MissingFiles(ExportFiles, env.exportDirectory) == [] && env.folderCreated
            && env.copyFailsAt.Some? && env.copyFailsAt.value < |ExportFiles| ==>
              r.outcome == Err(CopyFailed(ExportFiles[env.copyFailsAt.value]))
    ensures r.outcome.Ok? <==>
              && env.batchFileExists && env.exitCode == 0 && MissingFiles(ExportFiles, env.exportDirectory) == []
              && env.folderCreated && (env.copyFailsAt.None? || env.copyFailsAt.value >= |ExportFiles|)
    // only a run that copied every file logs, and it logs once
    ensures r.outcome.Ok? <==> r.copied == ExportFiles
    ensures r.loggedId.Some? ==> r.outcome.Ok?
    ensures r.outcome.Err? ==> r.store == store
    ensures r.outcome.Ok? ==>
              && r.outcome.value == Join(env.moduleFolder, FormatDate(env.folderTime))
              && r.exportFolder == Some(r.outcome.value)
              && ExportLogged(r.loggedId, r.store) == LogExport(store, r.outcome.value, env.logTime, env.historyFolderExists)
    // the dated folder is remembered as soon as it is named, even if it cannot be created
    ensures r.outcome.Err? && r.outcome.error.FolderNotCreated? ==>
              && !env.folderCreated
              && r.copied == []
              && r.exportFolder == Some(Join(env.moduleFolder, FormatDate(env.folderTime)))
    // a copy that raises leaves the folder named and the earlier files copied
    ensures r.outcome.Err? && r.outcome.error.CopyFailed? ==>
              && env.copyFailsAt.Some? && env.copyFailsAt.value < |ExportFiles|
              && r.copied == ExportFiles[..env.copyFailsAt.value]
              && r.exportFolder == Some(Join(env.moduleFolder, FormatDate(env.folderTime)))
  {
    if !env.batchFileExists then ExportRun(Err(BatchFileMissing), false, [], exportFolder, store, None)
    else if env.exitCode != 0 then ExportRun(Err(ExitedWithError(env.exitCode)), true, [], exportFolder, store, None)
    else
      var missing := MissingFiles(ExportFiles, env.exportDirectory);
      if missing != [] then ExportRun(Err(FilesMissing(missing)), true, [], exportFolder, store, None)
      else
        var folder := Join(env.moduleFolder, FormatDate(env.folderTime));
        if !env.folderCreated then ExportRun(Err(FolderNotCreated), true, [], Some(folder), store, None)
        else if env.copyFailsAt.Some? && env.copyFailsAt.value < |ExportFiles| then
          var k := env.copyFailsAt.value;
          assert |ExportFiles[..k]| < |ExportFiles|;
          ExportRun(Err(CopyFailed(ExportFiles[k])), true, ExportFiles[..k], Some(folder), store, None)
        else
          var logged := LogExport(store, folder, env.logTime, env.historyFolderExists);
          ExportRun(Ok(folder), true, ExportFiles, Some(folder), logged.store, logged.id)
  }

  /** A dated folder name is a plain directory entry. */
  lemma DateIsPlainName(t: Moment)
    ensures IsPlainName(FormatDate(t))
  {
    var s := FormatDate(t);
    var y, m, d := Pad4(t.year), Pad2(t.month), Pad2(t.day);
    assert s == y + "-" + m + "-" + d;
    assert forall k :: 0 <= k < |s| ==> IsDigit(s[k]) || s[k] == '-' by {
      forall k | 0 <= k < |s| ensures IsDigit(s[k]) || s[k] == '-' {
        if k < 4 { assert s[k] == y[k]; }
        else if k == 4 || k == 7 { }
        else if k < 7 { assert s[k] == m[k - 5]; }
        else { assert s[k] == d[k - 8]; }
      }
    }
  }

  /** A successful export into an initialised store adds exactly one record:
      it names the dated folder and carries the logging time in stored form. */
  lemma SuccessfulExportLogsOneRecord(env: ExportEnv, exportFolder: Option<string>, t: ExportTable)
    requires RunExport(env, exportFolder, ExportsReady(t)).outcome.Ok?
    ensures var r := RunExport(env, exportFolder, ExportsReady(t));
      && r.loggedId.Some?
      && r.store.ExportsReady?
      && r.store.table.rows[..|t.rows|] == t.rows
      && |r.store.table.rows| == |t.rows| + 1
      && r.store.table.rows[|t.rows|] == ExportRecord(r.loggedId.value, FormatStored(env.logTime), FormatDate(env.folderTime))
  {
    DateIsPlainName(env.folderTime);
    BasenameOfJoin(env.moduleFolder, FormatDate(env.folderTime));
    var r := RunExport(env, exportFolder, ExportsReady(t));
    assert r.store.table.rows[..|t.rows|] == t.rows;
  }

  // ---------------------------------------------------------------------
  // clear_exported_folder
  // ---------------------------------------------------------------------

  datatype ClearNotice = FolderNotFoundWarning | NoAction | DeletedInfo | DeleteError

  datatype Cleared = Cleared(exportFolder: Option<string>, notice: ClearNotice)

  /** `clear_exported_folder`. With no folder (None or the empty path) or a
      folder that no longer exists it only warns. Otherwise the folder is
      forgotten only when the operator confirms and the removal succeeds. */
  function ClearExportedFolder(exportFolder: Option<string>, folderExists: string -> bool, confirmed: bool, removed: bool): (r: Cleared)
    ensures exportFolder.None? || exportFolder.value == "" || !folderExists(exportFolder.value) ==>
              r == Cleared(exportFolder, FolderNotFoundWarning)
    ensures r.exportFolder != exportFolder <==>
              exportFolder.Some? && exportFolder.value != "" && folderExists(exportFolder.value) && confirmed && removed
    ensures r.exportFolder == exportFolder || r.exportFolder.None?
    ensures r.notice == DeletedInfo <==> r.exportFolder != exportFolder
  {
    if exportFolder.None? || exportFolder.value == "" || !folderExists(exportFolder.value) then
      Cleared(exportFolder, FolderNotFoundWarning)
    else if !confirmed then Cleared(exportFolder, NoAction)
    else if removed then Cleared(None, DeletedInfo)
    else Cleared(exportFolder, DeleteError)
  }

  /** Once a clear has deleted the folder, a second clear finds nothing to
      delete and only warns, whatever the operator and the file system do. */
  lemma ClearTwiceOnlyWarns(exportFolder: Option<string>, folderExists: string -> bool, confirmed: bool, removed: bool,
                            folderExists2: string -> bool, confirmed2: bool, removed2: bool)
    requires ClearExportedFolder(exportFolder, folderExists, confirmed, removed).notice == DeletedInfo
    ensures var first := ClearExportedFolder(exportFolder, folderExists, confirmed, removed);
      && first.exportFolder.None?
      && ClearExportedFolder(first.exportFolder, folderExists2, confirmed2, removed2) == Cleared(None, FolderNotFoundWarning)
  {
  }

  /** After a successful export whose dated folder still exists, clearing
      deletes exactly that folder when the operator confirms and the removal
      succeeds, and otherwise keeps it remembered. */
  lemma ClearAfterExport(env: ExportEnv, exportFolder: Option<string>, store: ExportStore,
                         folderExists: string -> bool, confirmed: bool, removed: bool)
    requires RunExport(env, exportFolder, store).outcome.Ok?
    requires folderExists(RunExport(env, exportFolder, store).outcome.value)
    ensures var run := RunExport(env, exportFolder, store);
      var c := ClearExportedFolder(run.exportFolder, folderExists, confirmed, removed);
      && (confirmed && removed ==> c == Cleared(None, DeletedInfo))
      && (!(confirmed && removed) ==> c.exportFolder == Some(Join(env.moduleFolder, FormatDate(env.folderTime))))
  {
    var run := RunExport(env, exportFolder, store);
    var folder := run.outcome.value;
    assert run.exportFolder == Some(folder);
    assert folder == Join(env.moduleFolder, FormatDate(env.folderTime));
    assert |FormatDate(env.folderTime)| <= |folder|;
  }
}

=== FILE: text.dfy ===
/** Character classes and small string utilities shared by the filename
    parser and the timestamp parser. Python's `str.lower()`, `\d`, `\w` and
    `\s` are modelled on the characters the tool's patterns can meet. */
module Text {

  predicate IsDigit(c: char) { '0' <= c <= '9' }

  predicate IsAsciiLetter(c: char) { 'a' <= c <= 'z' || 'A' <= c <= 'Z' }

  /** The regular-expression class `\w`, restricted to ASCII. */
  predicate IsWordChar(c: char) { IsDigit(c) || IsAsciiLetter(c) || c == '_' }

  /** The characters Python's `\s` (and `str.isspace`) accepts. */
  predicate IsSpace(c: char)
  {
    || c == ' ' || '\t' <= c <= '\r' || '\U{1C}' <= c <= '\U{1F}'
    || c == '\U{85}' || c == '\U{A0}' || c == '\U{1680}'
    || '\U{2000}' <= c <= '\U{200A}' || c == '\U{2028}' || c == '\U{2029}'
    || c == '\U{202F}' || c == '\U{205F}' || c == '\U{3000}'
  }

  predicate AllDigits(s: string)
  {
    forall k :: 0 <= k < |s| ==> IsDigit(s[k])
  }

  function LowerChar(c: char): (r: char)
    ensures 'A' <= c <= 'Z' ==> 'a' <= r <= 'z'
    ensures !('A' <= c <= 'Z') ==> r == c
  {
    if 'A' <= c <= 'Z' then (c as int + 32) as char else c
  }

  /** ASCII lowering, as `str.lower()` acts on the characters compared here. */
  function Lower(s: string): (r: string)
    ensures |r| == |s|
    ensures forall k :: 0 <= k < |s| ==> r[k] == LowerChar(s[k])
  {
    seq(|s|, k requires 0 <= k < |s| => LowerChar(s[k]))
  }

  predicate EndsWith(s: string, suffix: string)
  {
    |suffix| <= |s| && s[|s| - |suffix|..] == suffix
  }

  /** `s.lower().endswith(suffix)` for a lower-case ASCII `suffix`. */
  predicate EndsWithIgnoreCase(s: string, suffix: string)
  {
    EndsWith(Lower(s), suffix)
  }

  /** Length of the longest run of characters satisfying `p` at the front of `s`:
      the extent of a greedy `[...]+` before the next pattern element. */
  function RunLength(s: string, p: char -> bool): (n: nat)
    ensures n <= |s|
    ensures forall k :: 0 <= k < n ==> p(s[k])
    ensures n < |s| ==> !p(s[n])
  {
    if |s| > 0 && p(s[0]) then 1 + RunLength(s[1..], p) else 0
  }

  /** A run is determined by where the first character outside the class sits. */
  lemma RunOfConcat(a: string, rest: string, p: char -> bool)
    requires forall k :: 0 <= k < |a| ==> p(a[k])
    requires rest == [] || !p(rest[0])
    ensures RunLength(a + rest, p) == |a|
  {
    var s := a + rest;
    assert forall k :: 0 <= k < |a| ==> s[k] == a[k];
    assert |a| < |s| ==> s[|a|] == rest[0];
  }

  function DigitValue(c: char): int { c as int - '0' as int }

  function DigitChar(d: int): (c: char)
    requires 0 <= d <= 9
    ensures IsDigit(c) && DigitValue(c) == d
  {
    ('0' as int + d) as char
  }

  /** The number a string of decimal digits spells. */
  function DigitsValue(s: string): (v: int)
    requires AllDigits(s)
    ensures 0 <= v
  {
    if |s| == 0 then 0 else 10 * DigitsValue(s[..|s| - 1]) + DigitValue(s[|s| - 1])
  }

  /** Two-digit zero-padded rendering (`%02d`). */
  function Pad2(n: int): (s: string)
    requires 0 <= n < 100
    ensures |s| == 2 && AllDigits(s) && DigitsValue(s) == n
  {
    var s := [DigitChar(n / 10), DigitChar(n % 10)];
    DigitsValueTwo(s);
    s
  }

  /** Four-digit zero-padded rendering (`%04d`). */
  function Pad4(n: int): (s: string)
    requires 0 <= n < 10000
    ensures |s| == 4 && AllDigits(s) && DigitsValue(s) == n
  {
    var hi := Pad2(n / 100);
    var lo := Pad2(n % 100);
    DigitsOfConcat2(hi, lo);
    hi + lo
  }

  lemma DigitsValueTwo(s: string)
    requires |s| == 2 && AllDigits(s)
    ensures DigitsValue(s) == 10 * DigitValue(s[0]) + DigitValue(s[1])
  {
    assert s[..1][..0] == [];
    assert DigitsValue(s[..1]) == DigitValue(s[0]);
  }

  lemma DigitsOfConcat2(hi: string, lo: string)
    requires |hi| == 2 && |lo| == 2 && AllDigits(hi) && AllDigits(lo)
    ensures AllDigits(hi + lo)
    ensures DigitsValue(hi + lo) == 100 * DigitsValue(hi) + DigitsValue(lo)
  {
    var s := hi + lo;
    DigitsValueTwo(hi);
    DigitsValueTwo(lo);
    assert s[..3][..2][..1][..0] == [];
    assert s[..3][..2][..1] == [hi[0]];
    assert s[..3][..2] == hi;
  }

  /** Decimal rendering of an integer, as Python's `str(int)`. */
  function IntToString(n: int): (s: string)
    ensures |s| > 0
    ensures n >= 0 ==> AllDigits(s) && DigitsValue(s) == n
    ensures n < 0 ==> s[0] == '-'
  {
    if n < 0 then "-" + NatToString(-n) else NatToString(n)
  }

  function NatToString(n: nat): (s: string)
    ensures |s| > 0 && AllDigits(s) && DigitsValue(s) == n
    decreases n
  {
    if n < 10 then [DigitChar(n)]
    else
      var s := NatToString(n / 10) + [DigitChar(n % 10)];
      assert s[..|s| - 1] == NatToString(n / 10);
      s
  }
}

=== FILE: timestamps.dfy ===
/** Calendar values and the two textual timestamp formats the tool uses:
    the stored form `%Y-%m-%d %H:%M:%S`, written whenever a record is
    stamped, and the display form `%Y-%m-%d %I:%M %p` shown in the history
    table. Parsing follows CPython's `datetime.strptime`: every directive is
    a small regular expression (one- or two-digit fields, `\s+` for each
    blank in the format), the whole string must be consumed, and the date
    must exist on the proleptic Gregorian calendar. */
module Timestamps {
  import opened Optional
  import opened Text

  datatype DateTime = DateTime(year: int, month: int, day: int, hour: int, minute: int, second: int)

  predicate IsLeapYear(y: int)
  {
    y % 4 == 0 && (y % 100 != 0 || y % 400 == 0)
  }

  function DaysInMonth(y: int, m: int): (n: int)
    requires 1 <= m <= 12
    ensures 28 <= n <= 31
    ensures n == 29 <==> m == 2 && IsLeapYear(y)
  {
    if m == 2 then (if IsLeapYear(y) then 29 else 28)
    else if m == 4 || m == 6 || m == 9 || m == 11 then 30
    else 31
  }

  /** The values `datetime` accepts (`MINYEAR` is 1, `MAXYEAR` is 9999). */
  predicate Valid(t: DateTime)
  {
    && 1 <= t.year <= 9999
    && 1 <= t.month <= 12
    && 1 <= t.day <= DaysInMonth(t.year, t.month)
    && 0 <= t.hour <= 23
    && 0 <= t.minute <= 59
    && 0 <= t.second <= 59
  }

  /** A point in time as `datetime.now()` yields it. */
  type Moment = t: DateTime | Valid(t) witness DateTime(1970, 1, 1, 0, 0, 0)

  // ---------------------------------------------------------------------
  // Field patterns of `_strptime`, applied to a maximal run of digits.
  // ---------------------------------------------------------------------

  /** `%Y`: `\d\d\d\d`. */
  predicate IsYearField(s: string) { |s| == 4 }

  /** `%m` and `%I`: `1[0-2]|0[1-9]|[1-9]`. */
  predicate IsMonthField(s: string)
  {
    || (|s| == 1 && s[0] != '0')
    || (|s| == 2 && ((s[0] == '0' && s[1] != '0') || (s[0] == '1' && s[1] <= '2')))
  }

  /** `%d` without its blank-padded alternative: `3[0-1]|[1-2]\d|0[1-9]|[1-9]`. */
  predicate IsDayField(s: string)
  {
    || (|s| == 1 && s[0] != '0')
    || (|s| == 2 && ((s[0] == '0' && s[1] != '0') || s[0] == '1' || s[0] == '2' || (s[0] == '3' && s[1] <= '1')))
  }

  /** `%H`: `2[0-3]|[0-1]\d|\d`. */
  predicate IsHourField(s: string)
  {
    |s| == 1 || (|s| == 2 && (s[0] <= '1' || (s[0] == '2' && s[1] <= '3')))
  }

  /** `%M`: `[0-5]\d|\d`. */
  predicate IsMinuteField(s: string)
  {
    |s| == 1 || (|s| == 2 && s[0] <= '5')
  }

  /** `%S`: `6[0-1]|[0-5]\d|\d`. */
  predicate IsSecondField(s: string)
  {
    |s| == 1 || (|s| == 2 && (s[0] <= '5' || (s[0] == '6' && s[1] <= '1')))
  }

  /** What a directive leaves unread is the end of its input. */
  predicate IsSuffix(rest: string, s: string)
  {
    |rest| <= |s| && s[|s| - |rest|..] == rest
  }

  lemma SuffixEnd(rest: string, s: string)
    requires IsSuffix(rest, s) && 2 <= |rest|
    ensures s[|s| - 2..] == rest[|rest| - 2..]
  {
    assert s[|s| - 2..] == s[|s| - |rest|..][|rest| - 2..];
  }

  lemma SuffixTransitive(c: string, b: string, a: string)
    requires IsSuffix(c, b) && IsSuffix(b, a)
    ensures IsSuffix(c, a)
  {
    assert a[|a| - |c|..] == a[|a| - |b|..][|b| - |c|..];
  }

  /** A numeric directive: the digits up to the next separator must form one
      of the strings the directive's pattern accepts. */
  function Number(s: string, accept: string -> bool): (r: Option<(int, string)>)
    ensures r.Some? ==> 0 <= r.value.0 && |r.value.1| < |s|
    ensures r.Some? ==>
              var d := s[..|s| - |r.value.1|];
              && s == d + r.value.1 && AllDigits(d) && accept(d) && r.value.0 == DigitsValue(d)
  {
    var n := RunLength(s, IsDigit);
    if 0 < n && accept(s[..n]) then Some((DigitsValue(s[..n]), s[n..])) else None
  }

  /** `%d`, including its blank-padded alternative ` [1-9]`. */
  function Day(s: string): (r: Option<(int, string)>)
    ensures r.Some? ==> 0 <= r.value.0 && |r.value.1| < |s| && IsSuffix(r.value.1, s)
  {
    if 2 <= |s| && s[0] == ' ' && '1' <= s[1] <= '9' && (|s| == 2 || !IsDigit(s[2]))
    then Some((DigitValue(s[1]), s[2..]))
    else Number(s, IsDayField)
  }

  /** A literal character of the format. */
  function Literal(s: string, c: char): (r: Option<string>)
    ensures r.Some? <==> 0 < |s| && s[0] == c
    ensures r.Some? ==> s == [c] + r.value
  {
    if 0 < |s| && s[0] == c then Some(s[1..]) else None
  }

  /** A blank in the format, which `_strptime` turns into `\s+`. */
  function Blanks(s: string): (r: Option<string>)
    ensures r.Some? ==> |r.value| < |s| && IsSuffix(r.value, s) && IsSpace(s[0])
  {
    var n := RunLength(s, IsSpace);
    if 0 < n then Some(s[n..]) else None
  }

  /** `%p` in an English locale: `am|pm`, matched ignoring case; true for PM. */
  function Meridiem(s: string): (r: Option<(bool, string)>)
    ensures r.Some? <==> 2 <= |s| && (Lower(s[..2]) == "am" || Lower(s[..2]) == "pm")
    ensures r.Some? ==> s == s[..2] + r.value.1 && (r.value.0 <==> Lower(s[..2]) == "pm")
  {
    if 2 <= |s| && Lower(s[..2]) == "am" then Some((false, s[2..]))
    else if 2 <= |s| && Lower(s[..2]) == "pm" then Some((true, s[2..]))
    else None
  }

  /** The `%Y-%m-%d` prefix both formats share. */
  function DatePart(s: string): (r: Option<(int, int, int, string)>)
    ensures r.Some? ==> IsSuffix(r.value.3, s)
  {
    var y :- Number(s, IsYearField);
    var r1 :- Literal(y.1, '-');
    var m :- Number(r1, IsMonthField);
    var r2 :- Literal(m.1, '-');
    var d :- Day(r2);
    SuffixTransitive(r2, m.1, r1);
    SuffixTransitive(d.1, r2, r1);
    SuffixTransitive(d.1, r1, y.1);
    SuffixTransitive(d.1, y.1, s);
    Some((y.0, m.0, d.0, d.1))
  }

  /** `datetime.strptime(s, "%Y-%m-%d %H:%M:%S")`; None where it raises ValueError. */
  function ParseStored(s: string): (r: Option<DateTime>)
    ensures r.Some? ==> Valid(r.value)
  {
    var date :- DatePart(s);
    var r3 :- Blanks(date.3);
    var h :- Number(r3, IsHourField);
    var r4 :- Literal(h.1, ':');
    var mi :- Number(r4, IsMinuteField);
    var r5 :- Literal(mi.1, ':');
    var se :- Number(r5, IsSecondField);
    var t := DateTime(date.0, date.1, date.2, h.0, mi.0, se.0);
    if se.1 == [] && Valid(t) then Some(t) else None
  }

  /** `%I`: a number from 1 to 12. */
  function TwelveHour(s: string): (r: Option<(int, string)>)
    ensures r.Some? ==> 1 <= r.value.0 <= 12 && IsSuffix(r.value.1, s)
  {
    var h :- Number(s, IsMonthField);
    MonthFieldValue(s[..|s| - |h.1|]);
    Some(h)
  }

  /** ` %p` closing the text; true for PM. */
  function MeridiemAtEnd(s: string): (r: Option<bool>)
    ensures r.Some? ==> 2 <= |s| && (Lower(s[|s| - 2..]) == "am" || Lower(s[|s| - 2..]) == "pm")
    ensures r.Some? ==> (r.value <==> Lower(s[|s| - 2..]) == "pm")
  {
    var r5 :- Blanks(s);
    var p :- Meridiem(r5);
    if p.1 != [] then None
    else
      assert r5 == r5[..2];
      SuffixEnd(r5, s);
      Some(p.0)
  }

  /** The ` %I:%M %p` part of the display form: the hour of the day and the
      minute. The text must end with the meridiem, and the hour falls on the
      half of the day the meridiem names. */
  function ClockPart(s: string): (r: Option<(int, int)>)
    ensures r.Some? ==> 2 <= |s| && (Lower(s[|s| - 2..]) == "am" || Lower(s[|s| - 2..]) == "pm")
    ensures r.Some? ==> 0 <= r.value.0 <= 23 && (12 <= r.value.0 <==> Lower(s[|s| - 2..]) == "pm")
    ensures r.Some? ==> 0 <= r.value.1
  {
    var r3 :- Blanks(s);
    var h :- TwelveHour(r3);
    var r4 :- Literal(h.1, ':');
    var mi :- Number(r4, IsMinuteField);
    var pm :- MeridiemAtEnd(mi.1);
    SuffixTransitive(mi.1, r4, h.1);
    SuffixTransitive(mi.1, h.1, r3);
    SuffixTransitive(mi.1, r3, s);
    SuffixEnd(mi.1, s);
    Some((To24(h.0, pm), mi.0))
  }

  /** `datetime.strptime(s, "%Y-%m-%d %I:%M %p")`; None where it raises ValueError.
      Seconds are zero, and the text ends in the meridiem of the hour read. */
  function ParseDisplay(s: string): (r: Option<DateTime>)
    ensures r.Some? ==> Valid(r.value) && r.value.second == 0
    ensures r.Some? ==> 2 <= |s| && (Lower(s[|s| - 2..]) == "am" || Lower(s[|s| - 2..]) == "pm")
    ensures r.Some? ==> (12 <= r.value.hour <==> Lower(s[|s| - 2..]) == "pm")
  {
    var date :- DatePart(s);
    var clock :- ClockPart(date.3);
    var t := DateTime(date.0, date.1, date.2, clock.0, clock.1, 0);
    if Valid(t) then
      SuffixEnd(date.3, s);
      Some(t)
    else None
  }

  /** How `_strptime` turns `%I` and `%p` into an hour of the day. */
  function To24(hour12: int, pm: bool): (hour: int)
    ensures 1 <= hour12 <= 12 ==> hour == hour12 % 12 + (if pm then 12 else 0)
    ensures 1 <= hour12 <= 12 ==> 0 <= hour <= 23 && (12 <= hour <==> pm)
  {
    if !pm then (if hour12 == 12 then 0 else hour12)
    else (if hour12 == 12 then 12 else hour12 + 12)
  }

  /** `%m` and `%I` accept exactly the numbers 1 to 12. */
  lemma MonthFieldValue(d: string)
    requires AllDigits(d) && IsMonthField(d)
    ensures 1 <= DigitsValue(d) <= 12
  {
    if |d| == 2 { DigitsValueTwo(d); } else { assert d[..0] == []; }
  }

  // ---------------------------------------------------------------------
  // Rendering (`strftime`).
  // ---------------------------------------------------------------------

  /** `%Y-%m-%d`, the name of a dated export folder: four digits of the
      year, then two of the month and two of the day, zero-padded and
      separated by dashes. */
  function FormatDate(t: Moment): (s: string)
    ensures |s| == 10 && s[4] == '-' && s[7] == '-'
    ensures AllDigits(s[..4]) && DigitsValue(s[..4]) == t.year
    ensures AllDigits(s[5..7]) && DigitsValue(s[5..7]) == t.month
    ensures AllDigits(s[8..]) && DigitsValue(s[8..]) == t.day
  {
    var y, m, d := Pad4(t.year), Pad2(t.month), Pad2(t.day);
    var s := y + ("-" + (m + ("-" + d)));
    assert s[..4] == y && s[5..7] == m && s[8..] == d;
    s
  }

  /** `%Y-%m-%d %H:%M:%S`, the form every stored timestamp takes: the date,
      a blank, and hour, minute and second as two digits each. */
  function FormatStored(t: Moment): (s: string)
    ensures |s| == 19 && s[..10] == FormatDate(t) && s[10] == ' ' && s[13] == ':' && s[16] == ':'
    ensures AllDigits(s[11..13]) && DigitsValue(s[11..13]) == t.hour
    ensures AllDigits(s[14..16]) && DigitsValue(s[14..16]) == t.minute
    ensures AllDigits(s[17..]) && DigitsValue(s[17..]) == t.second
  {
    var h, m, sec := Pad2(t.hour), Pad2(t.minute), Pad2(t.second);
    var s := FormatDate(t) + (" " + (h + (":" + (m + (":" + sec)))));
    assert s[..10] == FormatDate(t) && s[11..13] == h && s[14..16] == m && s[17..] == sec;
    s
  }

  /** `%I`: the hour on a 12-hour clock. */
  function Hour12(h: int): (r: int)
    requires 0 <= h <= 23
    ensures 1 <= r <= 12
    ensures r % 12 == h % 12
  {
    if h % 12 == 0 then 12 else h % 12
  }

  /** `%p` in an English locale. */
  function MeridiemText(h: int): string
  {
    if h < 12 then "AM" else "PM"
  }

  /** `%Y-%m-%d %I:%M %p`, the form shown in the history table: the date,
      the hour on a 12-hour clock and the minute as two digits each, and
      `AM` before noon, `PM` from noon on. */
  function FormatDisplay(t: Moment): (s: string)
    ensures |s| == 19 && s[..10] == FormatDate(t) && s[10] == ' ' && s[13] == ':' && s[16] == ' '
    ensures AllDigits(s[11..13]) && DigitsValue(s[11..13]) == Hour12(t.hour)
    ensures AllDigits(s[14..16]) && DigitsValue(s[14..16]) == t.minute
    ensures s[17..] == (if t.hour < 12 then "AM" else "PM")
  {
    var h, m := Pad2(Hour12(t.hour)), Pad2(t.minute);
    var s := FormatDate(t) + ClockText(t);
    assert s[..10] == FormatDate(t) && s[11..13] == h && s[14..16] == m && s[17..] == MeridiemText(t.hour);
    s
  }

  // ---------------------------------------------------------------------
  // Round trips.
  // ---------------------------------------------------------------------

  /** A digit field followed by a non-digit is read back as the number it spells. */
  lemma NumberOfDigits(d: string, rest: string, accept: string -> bool)
    requires 0 < |d| && AllDigits(d) && accept(d)
    requires rest == [] || !IsDigit(rest[0])
    ensures Number(d + rest, accept) == Some((DigitsValue(d), rest))
  {
    RunOfConcat(d, rest, IsDigit);
    assert (d + rest)[..|d|] == d;
    assert (d + rest)[|d|..] == rest;
  }

  lemma DateFieldsAccepted(t: Moment)
    ensures IsYearField(Pad4(t.year))
    ensures IsMonthField(Pad2(t.month))
    ensures IsDayField(Pad2(t.day))
    ensures IsHourField(Pad2(t.hour))
    ensures IsMinuteField(Pad2(t.minute))
    ensures IsSecondField(Pad2(t.second))
    ensures IsMonthField(Pad2(Hour12(t.hour)))
  {
    MonthFieldOfPad2(t.month);
    MonthFieldOfPad2(Hour12(t.hour));
    DayFieldOfPad2(t.day);
    ClockFieldsOfPad2(t.hour, t.minute, t.second);
  }

  /** The two digits `%02d` writes. */
  lemma Pad2Chars(n: int)
    requires 0 <= n < 100
    ensures Pad2(n)[0] as int == '0' as int + n / 10 && Pad2(n)[1] as int == '0' as int + n % 10
  {
  }

  lemma MonthFieldOfPad2(n: int)
    requires 1 <= n <= 12
    ensures IsMonthField(Pad2(n))
  {
    Pad2Chars(n);
  }

  lemma DayFieldOfPad2(n: int)
    requires 1 <= n <= 31
    ensures IsDayField(Pad2(n))
  {
    Pad2Chars(n);
  }

  lemma ClockFieldsOfPad2(h: int, m: int, sec: int)
    requires 0 <= h <= 23 && 0 <= m <= 59 && 0 <= sec <= 59
    ensures IsHourField(Pad2(h)) && IsMinuteField(Pad2(m)) && IsSecondField(Pad2(sec))
  {
    Pad2Chars(h);
    Pad2Chars(m);
    Pad2Chars(sec);
  }

  lemma DatePartOfFormat(t: Moment, rest: string)
    requires 0 < |rest| && !IsDigit(rest[0])
    ensures DatePart(FormatDate(t) + rest) == Some((t.year, t.month, t.day, rest))
  {
    DateFieldsAccepted(t);
    var y, m, d := Pad4(t.year), Pad2(t.month), Pad2(t.day);
    assert FormatDate(t) + rest == y + ("-" + (m + ("-" + (d + rest))));
    NumberOfDigits(y, "-" + (m + ("-" + (d + rest))), IsYearField);
    NumberOfDigits(m, "-" + (d + rest), IsMonthField);
    NumberOfDigits(d, rest, IsDayField);
  }

  lemma BlanksOfSpace(rest: string)
    requires rest == [] || !IsSpace(rest[0])
    ensures Blanks(" " + rest) == Some(rest)
  {
    RunOfConcat(" ", rest, IsSpace);
  }

  /** Every timestamp the tool writes reads back as the moment it recorded. */
  lemma {:induction false} ParseStoredOfFormat(t: Moment)
    ensures ParseStored(FormatStored(t)) == Some(t)
  {
    var tail := " " + (Pad2(t.hour) + (":" + (Pad2(t.minute) + (":" + Pad2(t.second)))));
    assert FormatStored(t) == FormatDate(t) + tail;
    ParseStoredOfParts(t);
  }

  lemma ParseStoredOfParts(t: Moment)
    ensures ParseStored(FormatDate(t) + (" " + (Pad2(t.hour) + (":" + (Pad2(t.minute) + (":" + Pad2(t.second))))))) == Some(t)
  {
    DateFieldsAccepted(t);
    var h, mi, se := Pad2(t.hour), Pad2(t.minute), Pad2(t.second);
    var tail := " " + (h + (":" + (mi + (":" + se))));
    DatePartOfFormat(t, tail);
    BlanksOfSpace(h + (":" + (mi + (":" + se))));
    NumberOfDigits(h, ":" + (mi + (":" + se)), IsHourField);
    NumberOfDigits(mi, ":" + se, IsMinuteField);
    NumberOfDigits(se, [], IsSecondField);
    assert se + [] == se;
  }

  /** The display form reads back as the same minute, with the seconds gone. */
  lemma {:induction false} ParseDisplayOfFormat(t: Moment)
    ensures ParseDisplay(FormatDisplay(t)) == Some(t.(second := 0))
  {
    assert FormatDisplay(t) == FormatDate(t) + ClockText(t);
    ParseDisplayOfParts(t);
  }

  lemma ParseDisplayOfParts(t: Moment)
    ensures ParseDisplay(FormatDate(t) + ClockText(t)) == Some(t.(second := 0))
  {
    DatePartOfFormat(t, ClockText(t));
    ClockPartOfFormat(t);
  }

  /** The text after the date in the display form. */
  function ClockText(t: Moment): string
  {
    " " + (Pad2(Hour12(t.hour)) + (":" + (Pad2(t.minute) + (" " + MeridiemText(t.hour)))))
  }

  lemma ClockPartOfFormat(t: Moment)
    ensures ClockPart(ClockText(t)) == Some((t.hour, t.minute))
  {
    var h, mi, p := Pad2(Hour12(t.hour)), Pad2(t.minute), MeridiemText(t.hour);
    BlanksOfSpace(h + (":" + (mi + (" " + p))));
    NumberOfDigits(h, ":" + (mi + (" " + p)), IsMonthField);
    NumberOfDigits(mi, " " + p, IsMinuteField);
    BlanksOfSpace(p);
    MeridiemOfText(t.hour);
    HourOnTwelveHourClock(t.hour);
  }

  lemma MeridiemOfText(h: int)
    ensures Meridiem(MeridiemText(h)) == Some((12 <= h, []))
  {
    var p := MeridiemText(h);
    assert p[..2] == p && p[2..] == [];
    assert Lower("AM") == "am" by { assert LowerChar('A') == 'a' && LowerChar('M') == 'm'; }
    assert Lower("PM") == "pm" by { assert LowerChar('P') == 'p' && LowerChar('M') == 'm'; }
    assert Lower("PM") != "am";
  }

  /** `%I %p` loses nothing: the 24-hour clock is recovered from it. */
  lemma HourOnTwelveHourClock(h: int)
    requires 0 <= h <= 23
    ensures To24(Hour12(h), 12 <= h) == h
  {
  }

  /** Zeroing the seconds of a stored timestamp replaces its last two characters. */
  lemma ZeroSecondsText(t: Moment)
    ensures |FormatStored(t)| == 19
    ensures FormatStored(t.(second := 0)) == FormatStored(t)[..17] + "00"
  {
    var z: Moment := t.(second := 0);
    assert Pad2(0) == "00";
    assert FormatDate(z) == FormatDate(t);
  }
}

=== FILE: upload_store.dfy ===
/** The `uploads` table that records topic uploads: its one-shot schema
    migration, the pending insert made once the archives have been copied to
    the server, the status update made when the filter job ends, and the
    ordered history listing. The SQLite file is an abstract value: absent,
    present without the table, or holding the table. */
module UploadStore {
  import opened Optional
  import opened Text
  import opened Timestamps
  import opened HistoryOrder
  import opened WinPath
  import opened ArchiveNames
  import opened RowIds

  datatype Status = Pending | Completed | Interrupted | Failed

  /** One row of `uploads`. `filterCompleted` is the legacy column and
      `status` is None while the table has no status column. */
  datatype Upload = Upload(
    id: int,
    timestamp: Option<string>,
    topicMonth: string,
    xmlFiles: int,
    images: int,
    databaseZip: string,
    imagesZip: string,
    filterCompleted: Option<int>,
    status: Option<Status>)

  /** The table, its optional columns, and the AUTOINCREMENT counter
      (the largest id ever handed out). */
  datatype Table = Table(hasFilterCompleted: bool, hasStatus: bool, lastId: int, rows: seq<Upload>)

  /** The database file: missing, present without an `uploads` table (what a
      failed connection attempt leaves behind), or holding the table. */
  datatype Store = NoFile | NoTable | Ready(table: Table)

  predicate HasId(rows: seq<Upload>, id: int)
  {
    exists k :: 0 <= k < |rows| && rows[k].id == id
  }

  function TimestampOf(u: Upload): Option<string> { u.timestamp }

  /** Two rows that agree on everything but the status column. */
  predicate SameButStatus(a: Upload, b: Upload)
  {
    a.(status := None) == b.(status := None)
  }

  // ---------------------------------------------------------------------
  // init_upload_db
  // ---------------------------------------------------------------------

  /** The table `CREATE TABLE IF NOT EXISTS` makes: empty, with a status column. */
  const FreshTable := Table(false, true, 0, [])

  /** The status a legacy row receives when the status column is added. */
  function MigratedStatus(t: Table, u: Upload): Status
  {
    if t.hasFilterCompleted && u.filterCompleted == Some(1) then Completed else Pending
  }

  /** The migration step of `init_upload_db`: a table that lacks the status
      column gets one; rows with `filter_completed = 1` become completed and
      every other row pending (the column default when there is no legacy
      column to convert). A table that has the column is left alone. */
  function Migrate(t: Table): (r: Table)
    ensures r.hasStatus
    ensures r.hasFilterCompleted == t.hasFilterCompleted && r.lastId == t.lastId
    ensures |r.rows| == |t.rows|
    ensures forall k :: 0 <= k < |t.rows| ==> SameButStatus(r.rows[k], t.rows[k])
    ensures t.hasStatus ==> r == t
    ensures !t.hasStatus ==> forall k :: 0 <= k < |t.rows| ==>
              r.rows[k].status == Some(if t.hasFilterCompleted && t.rows[k].filterCompleted == Some(1) then Completed else Pending)
  {
    if t.hasStatus then t
    else t.(hasStatus := true,
            rows := seq(|t.rows|, k requires 0 <= k < |t.rows| => t.rows[k].(status := Some(MigratedStatus(t, t.rows[k])))))
  }

  /** `init_upload_db`. When the history folder cannot be created nothing
      happens; otherwise the table is created if missing and then migrated. */
  function Init(store: Store, historyFolderAvailable: bool): (r: Store)
    ensures !historyFolderAvailable ==> r == store
    ensures historyFolderAvailable ==> r.Ready? && r.table.hasStatus
    ensures historyFolderAvailable && !store.Ready? ==> r == Ready(FreshTable)
    ensures historyFolderAvailable && store.Ready? ==> r == Ready(Migrate(store.table))
    ensures historyFolderAvailable && store.Ready? ==>
              r.table.lastId == store.table.lastId && r.table.hasFilterCompleted == store.table.hasFilterCompleted
  {
    if !historyFolderAvailable then store
    else match store
      case Ready(t) => Ready(Migrate(t))
      case _ => Ready(FreshTable)
  }

  /** Running initialisation a second time changes nothing. */
  lemma InitIdempotent(store: Store, historyFolderAvailable: bool)
    ensures Init(Init(store, historyFolderAvailable), historyFolderAvailable) == Init(store, historyFolderAvailable)
  {
  }

  /** A table whose rows carry a status exactly when it has the column. */
  ghost predicate Consistent(t: Table)
  {
    forall k :: 0 <= k < |t.rows| ==> t.rows[k].status.Some? == t.hasStatus
  }

  /** After initialisation every row carries a status, and no field other
      than the status has changed. */
  lemma InitKeepsRows(t: Table)
    requires Consistent(t)
    ensures var r := Init(Ready(t), true);
      && |r.table.rows| == |t.rows|
      && forall k :: 0 <= k < |t.rows| ==> r.table.rows[k].status.Some? && SameButStatus(r.table.rows[k], t.rows[k])
  {
  }

  // ---------------------------------------------------------------------
  // log_upload_to_db
  // ---------------------------------------------------------------------

  datatype LogError =
    | UnrecognisedNames
    | MonthMismatch(databaseMonth: string, imagesMonth: string)
    | ArchiveUnreadable
    | InsertFailed

  datatype Logged = Logged(result: Result<int, LogError>, store: Store)

  /** The id `INSERT` receives: above every id ever handed out, so not in the table. */
  function NextId(t: Table): (id: int)
    ensures t.lastId < id
    ensures !HasId(t.rows, id)
  {
    var ids := seq(|t.rows|, k requires 0 <= k < |t.rows| => t.rows[k].id);
    assert forall k :: 0 <= k < |t.rows| ==> t.rows[k].id == ids[k];
    NextRowId(t.lastId, ids)
  }

  /** `day-month-year`, copied verbatim from the database archive name. */
  function TopicMonth(p: NameParts): string
  {
    p.day + "-" + p.month + "-" + p.year
  }

  /** The topic month splits back into the day, month and year it was built
      from, by the same group rules the archive patterns use. */
  lemma TopicMonthReadsBack(p: NameParts)
    requires IsRunOf(p.day, IsDigit) && IsRunOf(p.month, IsWordChar) && IsRunOf(p.year, IsDigit)
    ensures MatchGroups(TopicMonth(p), "") == Some(p)
  {
    var s := p.day + ("-" + (p.month + ("-" + p.year)));
    assert TopicMonth(p) == s;
    GroupsOfBareText(p.day, p.month, p.year);
    MatchGroupsOfShape(s, p, "");
  }

  /** The name checks of `log_upload_to_db`: each path is searched for its
      pattern, and the two month words must agree ignoring case; day and year
      are never compared. On success, the database archive's groups. */
  function CheckNames(databaseZip: string, imagesZip: string): (r: Result<NameParts, LogError>)
    ensures r.Ok? <==>
      && Search(databaseZip, MatchDatabase).Some?
      && Search(imagesZip, MatchImages).Some?
      && Lower(Search(databaseZip, MatchDatabase).value.month) == Lower(Search(imagesZip, MatchImages).value.month)
    ensures r.Ok? ==> Search(databaseZip, MatchDatabase) == Some(r.value)
    ensures Search(databaseZip, MatchDatabase).None? || Search(imagesZip, MatchImages).None? ==> r == Err(UnrecognisedNames)
  {
    var db := Search(databaseZip, MatchDatabase);
    var img := Search(imagesZip, MatchImages);
    if db.None? || img.None? then Err(UnrecognisedNames)
    else if Lower(db.value.month) != Lower(img.value.month) then
      Err(MonthMismatch(Lower(db.value.month), Lower(img.value.month)))
    else Ok(db.value)
  }

  /** Archives given by bare names, `database-D-Month-Y.zip` and
      `D'-Month'-Y'-images.zip` (in any case), pass the checks when the month words agree ignoring case,
      and the topic month is `D-Month-Y` as the database archive spells it. */
  lemma TopicMonthOfArchiveNames(head: string, d: string, m: string, y: string, ext: string,
                                 imgD: string, imgM: string, imgY: string, imgExt: string)
    requires Lower(head) == "database-" && Lower(ext) == ".zip" && Lower(imgExt) == "-images.zip"
    requires IsRunOf(d, IsDigit) && IsRunOf(m, IsWordChar) && IsRunOf(y, IsDigit)
    requires IsRunOf(imgD, IsDigit) && IsRunOf(imgM, IsWordChar) && IsRunOf(imgY, IsDigit)
    requires Lower(m) == Lower(imgM)
    ensures var r := CheckNames(head + (d + ("-" + (m + ("-" + (y + (ext + [])))))),
                                imgD + ("-" + (imgM + ("-" + (imgY + (imgExt + []))))));
      r.Ok? && TopicMonth(r.value) == d + "-" + m + "-" + y
  {
    var db := head + (d + ("-" + (m + ("-" + (y + (ext + []))))));
    var img := imgD + ("-" + (imgM + ("-" + (imgY + (imgExt + [])))));
    DatabaseNameMatches(head, d, m, y, ext, []);
    ImagesNameMatches(imgD, imgM, imgY, imgExt, []);
    SearchFindsMatchAtStart(db, MatchDatabase);
    SearchFindsMatchAtStart(img, MatchImages);
  }
  /** The same for full paths: each archive name may follow a folder path in
      which its pattern is found nowhere, as the search runs over the whole
      path. */
  lemma TopicMonthOfArchivePaths(dbFolder: string, head: string, d: string, m: string, y: string, ext: string,
                                 imgFolder: string, imgD: string, imgM: string, imgY: string, imgExt: string)
    requires Lower(head) == "database-" && Lower(ext) == ".zip" && Lower(imgExt) == "-images.zip"
    requires IsRunOf(d, IsDigit) && IsRunOf(m, IsWordChar) && IsRunOf(y, IsDigit)
    requires IsRunOf(imgD, IsDigit) && IsRunOf(imgM, IsWordChar) && IsRunOf(imgY, IsDigit)
    requires Lower(m) == Lower(imgM)
    requires var db := dbFolder + (head + (d + ("-" + (m + ("-" + (y + (ext + [])))))));
      forall j :: 0 <= j < |dbFolder| ==> MatchDatabase(db[j..]).None?
    requires var img := imgFolder + (imgD + ("-" + (imgM + ("-" + (imgY + (imgExt + []))))));
      forall j :: 0 <= j < |imgFolder| ==> MatchImages(img[j..]).None?
    ensures var r := CheckNames(dbFolder + (head + (d + ("-" + (m + ("-" + (y + (ext + []))))))),
                                imgFolder + (imgD + ("-" + (imgM + ("-" + (imgY + (imgExt + [])))))));
      r.Ok? && TopicMonth(r.value) == d + "-" + m + "-" + y
  {
    var db := head + (d + ("-" + (m + ("-" + (y + (ext + []))))));
    var img := imgD + ("-" + (imgM + ("-" + (imgY + (imgExt + [])))));
    DatabaseNameMatches(head, d, m, y, ext, []);
    ImagesNameMatches(imgD, imgM, imgY, imgExt, []);
    SearchSkipsPrefix(dbFolder, db, MatchDatabase);
    SearchSkipsPrefix(imgFolder, img, MatchImages);
  }


  /** The row inserted for an upload: no timestamp, pending, the topic month
      of the database archive, the entry counts, and the archives' base names. */
  function PendingUpload(id: int, parts: NameParts, databaseZip: string, imagesZip: string,
                         databaseEntries: seq<string>, imagesEntries: seq<string>): (u: Upload)
    ensures u.id == id && u.timestamp.None? && u.status == Some(Pending)
    ensures u.topicMonth == TopicMonth(parts)
    ensures u.xmlFiles == |MatchingIndices(databaseEntries, IsXmlEntry)| <= |databaseEntries|
    ensures u.images == |MatchingIndices(imagesEntries, IsImageEntry)| <= |imagesEntries|
    ensures u.databaseZip == Basename(databaseZip) && u.imagesZip == Basename(imagesZip)
  {
    CountWhereIsMatchingIndices(databaseEntries, IsXmlEntry);
    CountWhereIsMatchingIndices(imagesEntries, IsImageEntry);
    Upload(id, None, TopicMonth(parts),
           CountWhere(databaseEntries, IsXmlEntry), CountWhere(imagesEntries, IsImageEntry),
           Basename(databaseZip), Basename(imagesZip), None, Some(Pending))
  }

  /** `log_upload_to_db`. After the name checks both archives are read for
      their entry names (None when an archive cannot be opened); then a
      pending row is inserted under a fresh id, leaving every existing row as
      it was. A missing database file is created empty by the connection and
      the insert then fails. */
  function LogUpload(store: Store, databaseZip: string, imagesZip: string,
                     databaseEntries: Option<seq<string>>, imagesEntries: Option<seq<string>>): (r: Logged)
    ensures r.result.Ok? <==>
      CheckNames(databaseZip, imagesZip).Ok? && databaseEntries.Some? && imagesEntries.Some?
      && store.Ready? && store.table.hasStatus
    ensures CheckNames(databaseZip, imagesZip).Err? ==> r == Logged(Err(CheckNames(databaseZip, imagesZip).error), store)
    ensures r.result.Err? && r.store != store ==> store.NoFile? && r.store == NoTable
    ensures r.result.Ok? ==>
      var t := store.table;
      var id := r.result.value;
      && t.lastId < id && !HasId(t.rows, id)
      && r.store == Ready(t.(lastId := id, rows := t.rows + [
           PendingUpload(id, CheckNames(databaseZip, imagesZip).value, databaseZip, imagesZip,
                         databaseEntries.value, imagesEntries.value)]))
  {
    match CheckNames(databaseZip, imagesZip)
    case Err(e) => Logged(Err(e), store)
    case Ok(parts) =>
      if databaseEntries.None? || imagesEntries.None? then Logged(Err(ArchiveUnreadable), store)
      else match store
        case NoFile => Logged(Err(InsertFailed), NoTable)
        case NoTable => Logged(Err(InsertFailed), NoTable)
        case Ready(t) =>
          if !t.hasStatus then Logged(Err(InsertFailed), store)
          else
            var id := NextId(t);
            var u := PendingUpload(id, parts, databaseZip, imagesZip, databaseEntries.value, imagesEntries.value);
            Logged(Ok(id), Ready(t.(lastId := id, rows := t.rows + [u])))
  }

  // ---------------------------------------------------------------------
  // update_upload_status and mark_filter_complete
  // ---------------------------------------------------------------------

  datatype Updated = Updated(ok: bool, store: Store)

  /** The row as an update of its status (and, on request, its timestamp) leaves it. */
  function Restamped(u: Upload, status: Status, stamp: Option<string>): Upload
  {
    u.(status := Some(status), timestamp := if stamp.Some? then stamp else u.timestamp)
  }

  /** `update_upload_status`. Fails, changing nothing, when there is no id,
      no database file, no table, no row with the id, or no status column.
      Any status may replace any other: there is no transition guard. */
  function UpdateStatus(store: Store, id: Option<int>, status: Status, addTimestamp: bool, now: Moment): (r: Updated)
    ensures r.ok <==> id.Some? && store.Ready? && HasId(store.table.rows, id.value) && store.table.hasStatus
    ensures !r.ok ==> r.store == store
    ensures r.ok ==>
      var t := store.table;
      && r.store.Ready?
      && r.store.table.(rows := t.rows) == t
      && |r.store.table.rows| == |t.rows|
      && forall k :: 0 <= k < |t.rows| ==>
           var (before, after) := (t.rows[k], r.store.table.rows[k]);
           if before.id == id.value then
             && after.status == Some(status)
             && (addTimestamp ==> after.timestamp == Some(FormatStored(now)))
             && (!addTimestamp ==> after.timestamp == before.timestamp)
             && after.(status := before.status, timestamp := before.timestamp) == before
           else after == before
  {
    if id.None? then Updated(false, store)
    else match store
      case Ready(t) =>
        if !HasId(t.rows, id.value) || !t.hasStatus then Updated(false, store)
        else
          var stamp := if addTimestamp then Some(FormatStored(now)) else None;
          var rows := seq(|t.rows|, k requires 0 <= k < |t.rows| =>
                        if t.rows[k].id == id.value then Restamped(t.rows[k], status, stamp) else t.rows[k]);
          Updated(true, Ready(t.(rows := rows)))
      case _ => Updated(false, store)
  }

  /** `mark_filter_complete`: completed with a timestamp, or back to pending
      without one. */
  function MarkFilterComplete(store: Store, id: Option<int>, completed: bool, now: Moment): (r: Updated)
    ensures r == UpdateStatus(store, id, if completed then Completed else Pending, completed, now)
    ensures r.ok && !completed ==>
              forall k :: 0 <= k < |r.store.table.rows| && r.store.table.rows[k].id == id.value ==>
                r.store.table.rows[k].status == Some(Pending)
  {
    UpdateStatus(store, id, if completed then Completed else Pending, completed, now)
  }

  /** The lifecycle has no forward-only guard: a completed upload can be put
      back to pending, and its timestamp stays. */
  lemma CompletedCanReturnToPending(t: Table, id: int, now: Moment)
    requires t.hasStatus && HasId(t.rows, id)
    requires forall k :: 0 <= k < |t.rows| && t.rows[k].id == id ==> t.rows[k].status == Some(Completed)
    ensures var r := MarkFilterComplete(Ready(t), Some(id), false, now);
      && r.ok
      && forall k :: 0 <= k < |t.rows| && t.rows[k].id == id ==>
           r.store.table.rows[k].status == Some(Pending) && r.store.table.rows[k].timestamp == t.rows[k].timestamp
  {
  }

  // ---------------------------------------------------------------------
  // The table invariant kept by every write
  // ---------------------------------------------------------------------

  /** Ids are distinct and never above the AUTOINCREMENT counter, and rows
      carry a status exactly when the table has the column. */
  ghost predicate WellFormed(t: Table)
  {
    && Consistent(t)
    && (forall k :: 0 <= k < |t.rows| ==> t.rows[k].id <= t.lastId)
    && (forall j, k :: 0 <= j < k < |t.rows| ==> t.rows[j].id != t.rows[k].id)
  }

  ghost predicate StoreWellFormed(s: Store)
  {
    s.Ready? ==> WellFormed(s.table)
  }

  lemma InitKeepsWellFormed(store: Store, historyFolderAvailable: bool)
    requires StoreWellFormed(store)
    ensures StoreWellFormed(Init(store, historyFolderAvailable))
  {
  }

  lemma LogUploadKeepsWellFormed(store: Store, databaseZip: string, imagesZip: string,
                                 databaseEntries: Option<seq<string>>, imagesEntries: Option<seq<string>>)
    requires StoreWellFormed(store)
    ensures StoreWellFormed(LogUpload(store, databaseZip, imagesZip, databaseEntries, imagesEntries).store)
  {
    var r := LogUpload(store, databaseZip, imagesZip, databaseEntries, imagesEntries);
    if r.result.Ok? {
      AppendKeepsWellFormed(store.table, PendingUpload(r.result.value, CheckNames(databaseZip, imagesZip).value,
                                                       databaseZip, imagesZip, databaseEntries.value, imagesEntries.value));
    }
  }

  /** Appending a row with a status under an id above the counter. */
  lemma AppendKeepsWellFormed(t: Table, u: Upload)
    requires WellFormed(t) && t.hasStatus && u.status.Some? && t.lastId < u.id
    ensures WellFormed(t.(lastId := u.id, rows := t.rows + [u]))
  {
    var rows := t.rows + [u];
    assert forall k :: 0 <= k < |t.rows| ==> rows[k] == t.rows[k];
  }

  lemma UpdateStatusKeepsWellFormed(store: Store, id: Option<int>, status: Status, addTimestamp: bool, now: Moment)
    requires StoreWellFormed(store)
    ensures StoreWellFormed(UpdateStatus(store, id, status, addTimestamp, now).store)
  {
  }

  // ---------------------------------------------------------------------
  // get_upload_history
  // ---------------------------------------------------------------------

  /** `get_upload_history`: every row once, timestamped rows first and newest
      first, rows without a timestamp last. Empty when the file is missing or
      when the query fails (no table, or neither a status nor a legacy
      column to select). */
  function History(store: Store): (r: seq<Upload>)
    ensures !store.Ready? ==> r == []
    ensures store.Ready? && !store.table.hasStatus && !store.table.hasFilterCompleted ==> r == []
    ensures store.Ready? && (store.table.hasStatus || store.table.hasFilterCompleted) ==>
              multiset(r) == multiset(store.table.rows)
    ensures forall i, j :: 0 <= i < j < |r| && r[i].timestamp.None? ==> r[j].timestamp.None?
    ensures forall i, j :: 0 <= i < j < |r| && r[i].timestamp.Some? && r[j].timestamp.Some? ==>
              TextLeq(r[j].timestamp.value, r[i].timestamp.value)
  {
    match store
    case Ready(t) =>
      if t.hasStatus || t.hasFilterCompleted then
        var r := SortBy(t.rows, TimestampOf);
        assert forall i, j :: 0 <= i < j < |r| ==> ListedBefore(r[i].timestamp, r[j].timestamp);
        r
      else []
    case _ => []
  }
}

=== FILE: win_path.dfy ===
/** The two `os.path` operations the core applies to Windows paths:
    `join` of a folder and a directory entry, and `basename`. Both `\`
    and `/` separate components, and a leading `X:` is a drive. */
module WinPath {

  predicate IsSep(c: char) { c == '\\' || c == '/' }

  /** A bare drive such as `C:`, which `join` does not follow with a separator. */
  predicate IsBareDrive(p: string) { |p| == 2 && !IsSep(p[0]) && p[1] == ':' }

  /** A directory entry as `os.listdir` returns it: no separator, no drive colon. */
  predicate IsPlainName(name: string)
  {
    forall k :: 0 <= k < |name| ==> !IsSep(name[k]) && name[k] != ':'
  }

  /** `os.path.join(folder, name)` for a plain entry name: a `\` is inserted
      unless the folder is empty, a bare drive, or already ends in a separator. */
  function Join(folder: string, name: string): (p: string)
    ensures p == folder + name || p == folder + "\\" + name
    ensures p == folder + name <==> folder == [] || IsBareDrive(folder) || IsSep(folder[|folder| - 1])
  {
    if folder == [] || IsBareDrive(folder) || IsSep(folder[|folder| - 1]) then folder + name
    else folder + "\\" + name
  }

  /** Index just past the last separator of `p`, or 0 when there is none. */
  function AfterLastSep(p: string): (k: nat)
    ensures k <= |p|
    ensures 0 < k ==> IsSep(p[k - 1])
    ensures forall j :: k <= j < |p| ==> !IsSep(p[j])
  {
    if p == [] then 0
    else if IsSep(p[|p| - 1]) then |p|
    else AfterLastSep(p[..|p| - 1])
  }

  /** `os.path.basename(p)`: what follows the last separator, or the drive. */
  function Basename(p: string): (b: string)
    ensures |b| <= |p| && b == p[|p| - |b|..]
    ensures forall k :: 0 <= k < |b| ==> !IsSep(b[k])
  {
    var k := AfterLastSep(p);
    if k == 0 && 2 <= |p| && p[1] == ':' then p[2..] else p[k..]
  }

  /** The last separator is the one that no separator follows. */
  lemma AfterLastSepIs(p: string, k: nat)
    requires k <= |p| && (k == 0 || IsSep(p[k - 1]))
    requires forall j :: k <= j < |p| ==> !IsSep(p[j])
    ensures AfterLastSep(p) == k
  {
  }

  /** A plain name after a separator is the base name. */
  lemma BasenameAfterSep(prefix: string, name: string)
    requires IsPlainName(name) && prefix != [] && IsSep(prefix[|prefix| - 1])
    ensures Basename(prefix + name) == name
  {
    var p := prefix + name;
    assert p[|prefix| - 1] == prefix[|prefix| - 1];
    assert forall j :: |prefix| <= j < |p| ==> p[j] == name[j - |prefix|];
    AfterLastSepIs(p, |prefix|);
    assert p[|prefix|..] == name;
  }

  /** A plain name on its own is its base name. */
  lemma BasenameOfPlain(name: string)
    requires IsPlainName(name)
    ensures Basename(name) == name
  {
    AfterLastSepIs(name, 0);
  }

  /** A plain name after a bare drive is the base name. */
  lemma BasenameAfterDrive(drive: string, name: string)
    requires IsPlainName(name) && IsBareDrive(drive)
    ensures Basename(drive + name) == name
  {
    var p := drive + name;
    assert forall j :: 2 <= j < |p| ==> p[j] == name[j - 2];
    assert p[0] == drive[0] && p[1] == drive[1];
    AfterLastSepIs(p, 0);
    assert p[2..] == name;
  }

  /** `basename` undoes `join` for a plain entry name. */
  lemma BasenameOfJoin(folder: string, name: string)
    requires IsPlainName(name)
    ensures Basename(Join(folder, name)) == name
  {
    if folder == [] {
      assert Join(folder, name) == name;
      BasenameOfPlain(name);
    } else if IsBareDrive(folder) {
      BasenameAfterDrive(folder, name);
    } else if IsSep(folder[|folder| - 1]) {
      BasenameAfterSep(folder, name);
    } else {
      assert folder + "\\" + name == (folder + "\\") + name;
      BasenameAfterSep(folder + "\\", name);
    }
  }
}
